=== FILE: README.md ===
# Alexa skill mediator: type-routed dispatch core

A Dafny model of the dispatch engine of `Alexa.Net.MediatR`. The model covers these parts:

- **Admission and wrapper cache.** `SkillMediator.Send` admits a request only when the configured skill id is non-blank and equals the request's application id. It then gets or adds a `RequestHandlerWrapperImpl<T>` for the runtime type `T` of the request payload. The cache is static and process-wide. Finally it hands the request to that wrapper.
- **Handler selection.** The wrapper's local `Handler()` scans the typed handlers in registry order, and the first whose `CanHandle` answers true runs. Otherwise the optional default handler runs, but only if it is eligible. Otherwise the stage throws `InvalidOperationException`.
- **Pipeline composition.** The registered `IPipelineBehavior`s are reversed and folded around `Handler()`, so the first-registered behaviour is the outermost. A behaviour may return without calling `next`.
- **Registry access with typed failures.** `HandlerBase.GetHandlers` turns a registry that throws, and one that returns null, into two distinguishable `InvalidOperationException`s.

The model is written in a functional style:

- Every awaited call becomes a pure function returning `Result<T>` (`Ok` or `Err` with the .NET exception).
- Every object the core talks to is an immutable record. This includes handlers, behaviours, exception handlers, interceptors and the registry (`ServiceFactory`).
- Each dispatch yields an event trace, so "which handler was asked", "which one ran" and "in which order" are statements about that trace.
- The handler input is shared and mutable in the source. Here its contents are threaded through the chain, so a request interceptor's rewrite is seen by everything that runs after it.

Modules, in dependency order:

| module | file | models |
|---|---|---|
| `Errors` | errors.dfy | `Option` (null), the exception types, `Result` |
| `Requests` | requests.dfy | envelope, payload and its runtime type, response, `IHandlerInput` |
| `Handlers` | handlers.dfy | `IRequestHandler`, `IDefaultRequestHandler`, `IRequestHandler<T>`, `IIntentRequestHandler` |
| `Events` | events.dfy | the dispatch trace and the outcome of a stage |
| `Pipeline` | pipeline.dfy | `RequestHandlerDelegate`, the reverse/aggregate fold, behaviour variants |
| `HandlerBase` | handler_base.dfy | the registry boundary and `GetHandlers` |
| `RequestHandlerWrapper` | request_handler_wrapper.dfy | `RequestHandlerWrapperImpl<T>.Handle` |
| `SkillMediator` | skill_mediator.dfy | constructor, admission, `GetOrAdd` cache, `Send` |
| `Scenarios` | scenarios.dfy | the repository's unit-test scenarios as lemmas |

In these details the model follows the code as written:

- Only typed-handler lookups go through `GetHandlers`. A registry that throws while resolving the handler input, the default handler or the behaviours lets that exception through unchanged.
- A registry that returns null for the behaviours makes `Enumerable.Reverse` throw `ArgumentNullException("source")`. It is not wrapped.
- `GetHandlers`'s null-result message and the terminal not-found message are the same string for the typed-handler contract. Both start "Handler was not found".
- `RequestHandlerWrapperImpl<T>.Handle` never reads its `request` argument. The handler input comes from the registry (`HandlerIgnoresRequestArgument`).

## Model

| member | source | states |
|---|---|---|
| `Handlers.CanHandle` | src/Alexa.Net.MediatR/IRequestHandler.cs:8-9 | a handler keeping the interface default accepts every input; only an overriding check can throw |
| `Handlers.IntentAsRequestHandler` | src/Alexa.Net.MediatR/IRequestHandler.cs:22-25 | an intent handler seen as `IRequestHandler<IntentRequest>` never has the inherited eligibility; its `CanHandle` is its own check for every input |
| `RequestHandlerWrapper.DecliningIntentHandlerIsSkipped` | src/Alexa.Net.MediatR/IRequestHandler.cs:22-25 | an intent handler whose own check declines is asked and passed over, although the same handler with the inherited default would have run |
| `Pipeline.Reverse` | src/Alexa.Net.MediatR/Wrappers/RequestHandlerWrapper.cs:44 | the reversed behaviour list has the same length and holds element `n-1-k` at position `k` |
| `Pipeline.Aggregate` | src/Alexa.Net.MediatR/Wrappers/RequestHandlerWrapper.cs:45-46 | the fold adds exactly one layer per behaviour, and the last behaviour folded is the outermost; where the seed ends up is stated by `Pipeline.AggregateReversedIsNest` |
| `Pipeline.Compose` | src/Alexa.Net.MediatR/Wrappers/RequestHandlerWrapper.cs:42-46 | the composed delegate has one layer per registered behaviour, and the first-registered behaviour is the outermost |
| `Pipeline.AggregateReversedIsNest` | src/Alexa.Net.MediatR/Wrappers/RequestHandlerWrapper.cs:42-46 | folding the reversed list with `Aggregate` builds the list nested in registration order around the seed |
| `Pipeline.ComposeIsRegistrationOrder` | src/Alexa.Net.MediatR/Wrappers/RequestHandlerWrapper.cs:42-46 | the composed delegate is the first-registered behaviour wrapped around the composition of the rest; with no behaviours it is `Handler()` itself |
| `Pipeline.Intercept` | src/Alexa.Net.MediatR/Pipeline/IRequestInterceptor.cs:3-6 | request interceptors run in registration order, the first on the entry input and each later one on the contents its predecessor produced; the run completes iff none throws, and a failed run carries the exception of the last interceptor it reached |
| `Pipeline.Observe` | src/Alexa.Net.MediatR/Pipeline/IResponseInterceptor.cs:5-8 | the input is left unchanged; the run succeeds iff no interceptor throws, then every interceptor has observed that input in registration order; a failure is the first thrower's exception |
| `Pipeline.ResponseInterceptLayer` | src/Alexa.Net.MediatR/Pipeline/IResponseInterceptor.cs:5-8 | a response-interceptor layer returns the inner response unchanged when no interceptor throws, passes an inner failure through, and otherwise fails with the first thrower's exception |
| `Pipeline.Run` | src/Alexa.Net.MediatR/Wrappers/RequestHandlerWrapper.cs:46 | invoking a behaviour layer first enters that behaviour, with the current handler input |
| `Pipeline.Recover` | src/Alexa.Net.MediatR/Pipeline/IExceptionHandler.cs:5-10 | the first exception handler whose `CanHandle` accepts the exception produces the result; if none accepts it, the same exception is rethrown; every handler receives the shared input |
| `Pipeline.TransparentChainTrace` | src/Alexa.Net.MediatR/Wrappers/RequestHandlerWrapper.cs:42-46 | behaviours that call `next` once are entered in registration order, then `Handler()` runs on the same input, then tracing behaviours return innermost first; with an empty list the outcome is exactly `Handler()`'s |
| `Pipeline.ShortCircuitSkipsTerminal` | src/Alexa.Net.MediatR/Pipeline/IPipelineBehavior.cs:5-9 | a behaviour that does not call `next`, behind behaviours that call it once, makes its response the result; inner behaviours and `Handler()` never run |
| `Pipeline.ShortCircuitAnyPrefix` | src/Alexa.Net.MediatR/Pipeline/IPipelineBehavior.cs:5-9 | whatever behaviours stand in front of a behaviour that does not call `next`, the chain's outcome for every input is independent of `Handler()` |
| `Pipeline.ShortCircuitQuiet` | src/Alexa.Net.MediatR/Pipeline/IPipelineBehavior.cs:5-9 | whatever behaviours stand in front of a behaviour that does not call `next`, the chain's trace holds no handler lookup and no handler call |
| `Pipeline.SharedInputThroughChain` | src/Alexa.Net.MediatR/Wrappers/RequestHandlerWrapper.cs:46 | without request interceptors, and around a terminal stage that keeps its input, every behaviour, exception handler and terminal call receives the input given at entry, and it is unchanged afterwards |
| `Pipeline.InterceptedInputReachesTerminal` | test/Alexa.Net.MediatR.Tests/Pipeline/RequestInterceptorBehaviorTests.cs:37-48 | a first-registered request-interceptor behaviour, in front of only pass-through or tracing behaviours, hands `Handler()` the rewritten input, so the result is `Handler()`'s result on the rewritten contents |
| `Pipeline.ExceptionBehaviorOutermost` | test/Alexa.Net.MediatR.Tests/Pipeline/RequestExceptionProcessBehaviorTests.cs:51-72 | an outermost exception behaviour, in front of only pass-through or tracing behaviours and a terminal stage that keeps its input, passes a success through, recovers a failure via the first accepting exception handler, and otherwise lets the same exception propagate |
| `HandlerBase.GetHandlers` | src/Alexa.Net.MediatR/Wrappers/HandlerBase.cs:5-24 | succeeds iff the registry returns a list, and then returns it unchanged; a throw becomes `InvalidOperationException` with the original as inner; null becomes `InvalidOperationException` without inner |
| `HandlerBase.RegistryFailuresDistinguishable` | src/Alexa.Net.MediatR/Wrappers/HandlerBase.cs:13-21 | for any two contracts, the two failures have different messages, beginning "Error constructing handler" and "Handler was not found"; only the first carries an inner exception |
| `RequestHandlerWrapper.Handle` | src/Alexa.Net.MediatR/Wrappers/RequestHandlerWrapper.cs:16-47 | resolves the handler input, then the behaviours, before anything else; a throwing input lookup stops the dispatch; behaviour lookup failures propagate unwrapped, and a null list gives `ArgumentNullException("source")` |
| `RequestHandlerWrapper.Fallback` | src/Alexa.Net.MediatR/Wrappers/RequestHandlerWrapper.cs:31-38 | the default branch starts by looking up the default handler; it succeeds only if that handler is registered and accepts, with that handler's response, ending in its `Handle` call; conversely, a registered default that accepts, whether its `CanHandle` is inherited or its own, always runs and its response or exception is the result; a throwing default lookup or a throwing default `CanHandle` ends the stage with that same exception |
| `RequestHandlerWrapper.Select` | src/Alexa.Net.MediatR/Wrappers/RequestHandlerWrapper.cs:23-38 | the scan keeps the shared input; a success is the response of a typed handler that accepted, or of a registered default that accepted, and the trace ends with that handler's `Handle` call |
| `RequestHandlerWrapper.SelectAndRun` | src/Alexa.Net.MediatR/Wrappers/RequestHandlerWrapper.cs:20-39 | `Handler()` starts with the `IRequestHandler<T>` lookup, keeps the input, and succeeds only when that lookup returned a list and some `Handle` call answered |
| `RequestHandlerWrapper.ThrowingCheckStopsScan` | src/Alexa.Net.MediatR/Wrappers/RequestHandlerWrapper.cs:23-27 | if handlers `0..k-1` decline and handler `k`'s `CanHandle` throws, the scan ends with that same exception after asking exactly handlers `0..k`, and no handler runs |
| `RequestHandlerWrapper.FirstEligibleHandlerWins` | src/Alexa.Net.MediatR/Wrappers/RequestHandlerWrapper.cs:23-29 | if handlers `0..k-1` decline and handler `k` accepts, exactly handlers `0..k` are asked, only handler `k` runs, and its response is the result |
| `RequestHandlerWrapper.NoEligibleHandlerFallsBack` | src/Alexa.Net.MediatR/Wrappers/RequestHandlerWrapper.cs:23-35 | when every typed handler declines, all are asked in order and the outcome is the default-handler branch's |
| `RequestHandlerWrapper.DefaultRunsIff` | src/Alexa.Net.MediatR/Wrappers/RequestHandlerWrapper.cs:22-35 | the default handler runs iff the typed handlers were fetched and all decline, a default is registered, and its `CanHandle` answers true |
| `RequestHandlerWrapper.NotFoundWithoutUsableDefault` | src/Alexa.Net.MediatR/Wrappers/RequestHandlerWrapper.cs:31-38 | with every typed handler declining and a default that is absent or declines, the terminal stage fails with the handler-not-found `InvalidOperationException` |
| `RequestHandlerWrapper.InheritedDefaultRunsWhenReached` | src/Alexa.Net.MediatR/IRequestHandler.cs:8-16 | a default handler that keeps the inherited `CanHandle` answers whenever every typed handler declines |
| `RequestHandlerWrapper.UsableDefaultAnswersWhenReached` | src/Alexa.Net.MediatR/Wrappers/RequestHandlerWrapper.cs:31-34 | when the typed handlers were fetched and all decline, a registered default whose `CanHandle` answers true, inherited or overridden, runs last and its response or exception is the result |
| `RequestHandlerWrapper.InheritedHandlerIsChosen` | src/Alexa.Net.MediatR/IRequestHandler.cs:6-12 | a typed handler that keeps the inherited `CanHandle` runs as soon as the scan reaches it |
| `RequestHandlerWrapper.RegistryFailureSurfaces` | src/Alexa.Net.MediatR/Wrappers/RequestHandlerWrapper.cs:22 | if the typed-handler lookup throws or returns null, no handler is asked and the stage fails with the matching `GetHandlers` exception |
| `RequestHandlerWrapper.TypedHandlersFetchedByRequestType` | src/Alexa.Net.MediatR/Wrappers/RequestHandlerWrapper.cs:22 | the terminal stage starts by looking up `IRequestHandler<T>` for the wrapper's own type, and registrations for other payload types do not change its outcome |
| `RequestHandlerWrapper.SelectionKeepsInput` | src/Alexa.Net.MediatR/Wrappers/RequestHandlerWrapper.cs:25-34 | every `CanHandle` and `Handle` call of the terminal stage receives the input the stage was given, and leaves it unchanged |
| `RequestHandlerWrapper.HandleIgnoresRequestArgument` | src/Alexa.Net.MediatR/Wrappers/RequestHandlerWrapper.cs:16-18 | the outcome of `Handle` is the same whatever request is passed to it |
| `RequestHandlerWrapper.NoBehaviorsMeansSelection` | src/Alexa.Net.MediatR/Wrappers/RequestHandlerWrapper.cs:42-46 | with an empty behaviour list the result is the terminal selection's result |
| `RequestHandlerWrapper.HandlerInputShared` | src/Alexa.Net.MediatR/Wrappers/RequestHandlerWrapper.cs:18-46 | without request interceptors, the input resolved at entry is the one every behaviour, `CanHandle` and `Handle` call receives |
| `RequestHandlerWrapper.ShortCircuitRunsNoHandler` | src/Alexa.Net.MediatR/Wrappers/RequestHandlerWrapper.cs:20-46 | a behaviour that does not call `next`, behind only pass-through or tracing behaviours, gives its response; typed handlers are never looked up and no handler is called |
| `RequestHandlerWrapper.ShortCircuitBehindAnyBehaviors` | src/Alexa.Net.MediatR/Wrappers/RequestHandlerWrapper.cs:20-46 | with a behaviour that does not call `next`, behind any behaviours at all, `Handle`'s outcome is the same whatever typed and default handlers are registered, and no handler is looked up or called |
| `SkillMediator.New` | src/Alexa.Net.MediatR/SkillMediator.cs:15-19 | construction succeeds iff both arguments are non-null; a null service factory is reported before a null options object |
| `SkillMediator.IsNullOrWhiteSpace` | src/Alexa.Net.MediatR/SkillMediator.cs:23 | the character scan answers true iff the id is null or every character is white space |
| `SkillMediator.Send` | src/Alexa.Net.MediatR/SkillMediator.cs:21-34 | a rejected request fails with the cache unchanged and no factory call; a success implies admission, a payload and a cached wrapper for its type; existing entries are kept; the factory runs at most once, only for an uncached payload type; validity is kept |
| `SkillMediator.AdmissionError` | src/Alexa.Net.MediatR/SkillMediator.cs:23-25 | a request is admitted iff the skill id is non-blank and equals the application id; a blank skill id or a present but different application id is an `ArgumentException` |
| `SkillMediator.GetOrAdd` | src/Alexa.Net.MediatR/SkillMediator.cs:29-31 | a cached type is returned without calling the factory; a miss calls it, caches a fresh instance on success, and caches nothing on null or throw; other keys are untouched and validity is kept |
| `SkillMediator.GetOrAddIdempotent` | src/Alexa.Net.MediatR/SkillMediator.cs:29-31 | a second get-or-add for the same type returns the same wrapper, does not call the factory, and leaves the cache as the first left it |
| `SkillMediator.BlankSkillIdRejects` | src/Alexa.Net.MediatR/SkillMediator.cs:23-25 | a null, empty or white-space skill id fails every request with `ArgumentException`; the cache is unchanged and no factory or handler runs |
| `SkillMediator.MismatchedApplicationRejects` | src/Alexa.Net.MediatR/SkillMediator.cs:24-25 | an application id that differs from the skill id fails with an `ArgumentException`, before any lookup or dispatch |
| `SkillMediator.AdmittedRequestIsDelegated` | src/Alexa.Net.MediatR/SkillMediator.cs:21-34 | an admitted request is routed to the cached wrapper for its payload's runtime type; `Send` returns exactly that wrapper's `Handle` result and trace |
| `SkillMediator.NullWrapperCachesNothing` | src/Alexa.Net.MediatR/SkillMediator.cs:29-31 | if construction yields null, `Send` fails with `InvalidOperationException` and nothing is cached for the type |
| `SkillMediator.SendChangesOnlyItsOwnType` | src/Alexa.Net.MediatR/SkillMediator.cs:29 | `Send` keeps every existing cache entry and adds at most the entry for the request's own payload type |
| `SkillMediator.CachedWrapperIsReused` | src/Alexa.Net.MediatR/SkillMediator.cs:13-31 | once a type is cached, no later `Send`, from any mediator, calls the factory for it, and its entry stays the same instance |
| `SkillMediator.FactoryRunsAtMostOnce` | src/Alexa.Net.MediatR/SkillMediator.cs:29-31 | when construction succeeds, the factory is called for a type at most once over any sequence of `Send` calls |
| `SkillMediator.SessionKeepsCacheValid` | src/Alexa.Net.MediatR/SkillMediator.cs:13 | every cache reachable by `Send` calls holds each type's own wrapper, with no instance shared between types |
| `Scenarios.AdmissionRejectsTestPairs` | test/Alexa.Net.MediatR.Tests/SkillMediatorTests.cs:32-48 | every rejected (skill id, application id) pair of the mediator tests fails with `ArgumentException` and leaves the cache unchanged |
| `Scenarios.MatchingIdsAdmitted` | src/Alexa.Net.MediatR/SkillMediator.cs:23-25 | skill id "0" and application id "0" pass admission |
| `Scenarios.FoundHandlerAnswers` | test/Alexa.Net.MediatR.Tests/Wrappers/RequestHandlerWrapperImplTests.cs:48-61 | the intent "Handled" is answered "From Handler" |
| `Scenarios.UnhandledFallsToDefault` | test/Alexa.Net.MediatR.Tests/Wrappers/RequestHandlerWrapperImplTests.cs:63-76 | the intent "Unhandled" is answered "From Default" |
| `Scenarios.NoDefaultFails` | test/Alexa.Net.MediatR.Tests/Wrappers/RequestHandlerWrapperImplTests.cs:78-88 | without a default handler, the dispatch fails with `InvalidOperationException`, whether the container throws or returns null for it |
| `Scenarios.RegistryFailuresAfterPassThrough` | test/Alexa.Net.MediatR.Tests/Wrappers/RequestHandlerWrapperImplTests.cs:90-130 | behind a pass-through behaviour, a throwing registry gives the construction-failed exception wrapping the `NotSupportedException`; a null registry gives the not-found one |
| `Scenarios.TwoBehaviorsNest` | src/Alexa.Net.MediatR/Wrappers/RequestHandlerWrapper.cs:42-46 | with behaviours [A, B], the trace is A entered, B entered, handler, B returned, A returned |
| `Scenarios.ExceptionBehaviorScenarios` | test/Alexa.Net.MediatR.Tests/Pipeline/RequestExceptionProcessBehaviorTests.cs:51-72 | through `Send`, the handler's `InvalidOperationException` is recovered as the empty response, and its `ArgumentException` propagates unchanged |
| `Scenarios.InterceptorRewriteSeenByHandler` | test/Alexa.Net.MediatR.Tests/Pipeline/RequestInterceptorBehaviorTests.cs:37-48 | through `Send`, a handler echoing the locale answers "fr-fr" after the interceptor rewrote "en-US" |

## Left out

- Asynchrony, `Task` and `CancellationToken` are left out. Every awaited call is a pure function, and the token is not threaded through.
- The thread safety of the `ConcurrentDictionary` is left out. The cache is a sequential map, so races between concurrent first calls for one type are not modelled.
- Reflection (`Activator.CreateInstance`, `MakeGenericType`) is replaced by an `activate` parameter: for each type it builds, yields null or throws. The DI container is replaced by the `Registry` record.
- The registry is deterministic: within one dispatch, a contract resolves the same way every time it is asked. Transient instances are therefore not distinguished beyond their `id`.
- Handlers are pure functions of the input. A handler or `CanHandle` that mutates the shared input is not modelled; only request interceptors rewrite it.
- The implementations of `RequestExceptionProcessBehavior`, `RequestInterceptorBehavior` and the response-interceptor behaviour are not modelled. They are black-box behaviour variants that carry their resolved handlers and interceptors. Their tests pin only two things:
  - one accepting exception handler turns an `InvalidOperationException` into a response, and an exception it does not accept still reaches the caller as an `ArgumentException`;
  - a request interceptor's locale rewrite is seen by the handler.
- The rest of these behaviours' semantics are modelling choices:
  - exception handlers are consulted in registration order and the first that accepts wins;
  - an exception that no handler accepts is rethrown as the same exception;
  - request interceptors run in registration order, and one that throws stops the run;
  - response interceptors observe the response in registration order, leave it unchanged, and the first that throws replaces the result with its exception. No test exercises response interceptors.
- Exception handlers' `CanHandle` is modelled as total. An exception handler whose check itself throws is not modelled.
- A null `request` passed to `Send` is not modelled. Null links in `Context.System.Application` collapse into one `MissingApplication` case, which gives `NullReferenceException` once the skill id is non-blank.
- `char.IsWhiteSpace` is spelled out for the Unicode separator categories and the listed control characters. No other Unicode data is used.
- Type names in messages use the `Namespace.Interface`1[T]` form of `Type.ToString()`. The exact text of a real type's name is not checked.
- The response builder, the attributes manager and persistence adapter, and `DefaultHandlerInput` are not modelled. They are I/O or null checks over collaborators the core only passes along, so the handler input is an opaque envelope holder.
- An intent handler that implements `IIntentRequestHandler.CanHandle` only explicitly would, when called through `IRequestHandler`, get the inherited default. That C# dispatch subtlety is not modelled: an intent handler's check is always the one used.

=== FILE: errors.dfy ===
/** The failure vocabulary of the dispatch core: the .NET exceptions it raises
    or lets through, and the `Result` every fallible step returns instead of
    throwing. */
module Errors {

  /** A nullable reference: `None` is C#'s `null`. */
  datatype Option<+T> = None | Some(value: T)

  /** The exceptions the core distinguishes, by .NET exception type. */
  datatype Exn =
    | ArgumentNull(paramName: string)                        // ArgumentNullException
    | Argument(message: string)                              // ArgumentException
    | InvalidOperation(message: string, inner: Option<Exn>)  // InvalidOperationException
    | NullReference                                          // NullReferenceException
    | Raised(typeName: string, message: string)              // any other exception from user code

  /** `ex is ArgumentException`: ArgumentNullException derives from it. */
  predicate IsArgumentException(e: Exn) {
    e.Argument? || e.ArgumentNull?
  }

  /** `ex is InvalidOperationException`. */
  predicate IsInvalidOperation(e: Exn) {
    e.InvalidOperation?
  }

  /** What an awaited call yields: a value, or the exception it threw. */
  datatype Result<+T> = Ok(value: T) | Err(error: Exn)
}

=== FILE: events.dfy ===
/** The observable trace of one dispatch, and the outcome every stage of the
    chain produces. */
module Events {
  import opened Errors
  import opened Requests
  import opened Handlers

  /** Whether a handler was fetched as a typed handler or as the default. */
  datatype Role = TypedRole | DefaultRole

  datatype Event =
    | Resolve(contract: Contract)                           // a registry lookup
    | Entered(behavior: string, input: HandlerInput)        // pipeline.Handle(input, ct, next)
    | Left(behavior: string)                                // a tracing behaviour after next() returned
    | Intercepted(interceptor: nat, input: HandlerInput)    // a request interceptor ran on input
    | Observed(interceptor: nat, input: HandlerInput)       // a response interceptor ran on input
    | Consulted(exceptionHandler: nat, input: HandlerInput) // an exception handler's CanHandle
    | Recovered(exceptionHandler: nat, input: HandlerInput) // an exception handler's Handle
    | CanHandleCalled(role: Role, handler: nat, input: HandlerInput)
    | HandleCalled(role: Role, handler: nat, input: HandlerInput)
  {
    /** The event, if it received a handler input, received `input`. */
    predicate Carries(input: HandlerInput) {
      match this
      case Entered(_, i) => i == input
      case Intercepted(_, i) => i == input
      case Observed(_, i) => i == input
      case Consulted(_, i) => i == input
      case Recovered(_, i) => i == input
      case CanHandleCalled(_, _, i) => i == input
      case HandleCalled(_, _, i) => i == input
      case _ => true
    }

    /** A handler lookup or a handler call: work of the terminal stage. */
    predicate IsHandlerActivity() {
      || (Resolve? && (contract.RequestHandlers? || contract.DefaultRequestHandler?))
      || CanHandleCalled?
      || HandleCalled?
    }
  }

  /** Every event of `trace` that received a handler input received `input`. */
  ghost predicate AllCarry(trace: seq<Event>, input: HandlerInput) {
    forall k :: 0 <= k < |trace| ==> trace[k].Carries(input)
  }

  /** No lookup of handlers and no handler call appears in `trace`. */
  ghost predicate NoHandlerActivity(trace: seq<Event>) {
    forall k :: 0 <= k < |trace| ==> !trace[k].IsHandlerActivity()
  }

  /** What running a stage yields: its result, the events it caused, and the
      handler input's contents afterwards (interceptors may rewrite them). */
  datatype Outcome = Outcome(result: Result<SkillResponse>, trace: seq<Event>, input: HandlerInput)

  function Prepend(events: seq<Event>, o: Outcome): Outcome {
    Outcome(o.result, events + o.trace, o.input)
  }

  /** Prefixing twice is prefixing once with both event lists, in order. */
  lemma PrependTwice(a: seq<Event>, b: seq<Event>, o: Outcome)
    ensures Prepend(a, Prepend(b, o)) == Prepend(a + b, o)
  {
    assert a + (b + o.trace) == (a + b) + o.trace;
  }
}

=== FILE: handler_base.dfy ===
/** The handler registry (`ServiceFactory`) as the core sees it, and
    `HandlerBase.GetHandlers`, which turns the registry's two failure modes
    into distinguishable `InvalidOperationException`s. */
module HandlerBase {
  import opened Errors
  import opened Requests
  import opened Handlers
  import Pipeline

  /** What one registry lookup does: hand back an instance, hand back null,
      or throw. */
  datatype Resolution<+T> = Resolved(value: T) | Absent | Threw(error: Exn)

  /** The registry, one lookup per contract the core asks for: the handler
      input (`GetInstance<IHandlerInput>`), the typed handlers per payload
      type (`GetInstances<IRequestHandler<T>>`), the default handler
      (`GetInstance<IDefaultRequestHandler>`) and the pipeline behaviours
      (`GetInstances<IPipelineBehavior>`). */
  datatype Registry = Registry(
    handlerInput: Resolution<HandlerInput>,
    handlers: TypeTag -> Resolution<seq<Handler>>,
    defaultHandler: Resolution<Handler>,
    behaviors: Resolution<seq<Pipeline.Behavior>>)

  const ConstructionFailed: string := "Error constructing handler"
  const NotFound: string := "Handler was not found"

  /** The message both failures share after their opening words. */
  function MessageTail(c: Contract): string {
    " for request of type " + TypeName(c) + ". Register your handlers with the container."
  }

  /** Message of the failure raised when the registry throws. */
  function ConstructionFailedMessage(c: Contract): string {
    ConstructionFailed + MessageTail(c)
  }

  /** Message of the failure raised when no handler is available. */
  function NotFoundMessage(c: Contract): string {
    NotFound + MessageTail(c)
  }

  /** `GetHandlers<THandler>` for the contract `c`, given what the registry
      does when asked for it. */
  function GetHandlers<H>(c: Contract, lookup: Resolution<seq<H>>): (r: Result<seq<H>>)
    ensures r.Ok? <==> lookup.Resolved?
    ensures lookup.Resolved? ==> r.value == lookup.value
    ensures lookup.Threw? ==> r == Err(InvalidOperation(ConstructionFailedMessage(c), Some(lookup.error)))
    ensures lookup.Absent? ==> r == Err(InvalidOperation(NotFoundMessage(c), None))
  {
    match lookup
    case Threw(e) => Err(InvalidOperation(ConstructionFailedMessage(c), Some(e)))
    case Absent => Err(InvalidOperation(NotFoundMessage(c), None))
    case Resolved(hs) => Ok(hs)
  }

  /** The two failures of `GetHandlers` can always be told apart, whatever
      contracts they name: their messages start differently, and only the
      first carries an inner exception. */
  lemma RegistryFailuresDistinguishable<H>(c: Contract, d: Contract, e: Exn)
    ensures var thrown := GetHandlers<H>(c, Threw(e));
            var missing := GetHandlers<H>(d, Absent);
            && thrown.Err? && missing.Err?
            && IsInvalidOperation(thrown.error) && IsInvalidOperation(missing.error)
            && thrown.error.message != missing.error.message
            && thrown.error.inner == Some(e) && missing.error.inner == None
            && thrown.error.message[..|ConstructionFailed|] == ConstructionFailed
            && missing.error.message[..|NotFound|] == NotFound
  {
    var m1 := ConstructionFailedMessage(c);
    var m2 := NotFoundMessage(d);
    assert m1[..26] == ConstructionFailed;
    assert m2[..21] == NotFound;
    assert m1[0] == ConstructionFailed[0] == 'E';
    assert m2[0] == NotFound[0] == 'H';
  }
}

=== FILE: handlers.dfy ===
/** The handler capability set: an eligibility check and a handle operation,
    and the contract types handlers are registered under. */
module Handlers {
  import opened Errors
  import opened Requests

  /** The interface types the registry is asked for. */
  datatype Contract =
    | HandlerInputService                    // IHandlerInput
    | RequestHandlers(requestType: TypeTag)  // IRequestHandler<T>
    | DefaultRequestHandler                  // IDefaultRequestHandler
    | PipelineBehaviors                      // IPipelineBehavior

  /** `typeof(C).ToString()`, as interpolated into error messages. */
  function TypeName(c: Contract): string {
    match c
    case HandlerInputService => "Alexa.Net.MediatR.IHandlerInput"
    case RequestHandlers(t) => "Alexa.Net.MediatR.IRequestHandler`1[" + t + "]"
    case DefaultRequestHandler => "Alexa.Net.MediatR.IDefaultRequestHandler"
    case PipelineBehaviors => "Alexa.Net.MediatR.Pipeline.IPipelineBehavior"
  }

  /** How a handler answers `CanHandle`: the interface's default method, or
      the implementing class's own check (which may throw). */
  datatype Eligibility =
    | Inherited
    | Overridden(check: HandlerInput -> Result<bool>)

  /** An `IRequestHandler` instance. `id` stands for object identity, so that
      traces can say which instance was asked and which one ran. */
  datatype Handler = Handler(id: nat, eligibility: Eligibility, handle: HandlerInput -> Result<SkillResponse>)

  /** `handler.CanHandle(input)`. A handler that keeps the interface default
      accepts every input, and only an overriding check can throw. */
  function CanHandle(h: Handler, input: HandlerInput): (r: Result<bool>)
    ensures h.eligibility.Inherited? ==> r == Ok(true)
    ensures r.Err? ==> h.eligibility.Overridden?
  {
    match h.eligibility
    case Inherited => Ok(true)
    case Overridden(check) => check(input)
  }

  /** `IIntentRequestHandler`: `CanHandle` is re-declared abstract, so an
      intent handler always brings its own check; it is registered as an
      `IRequestHandler<IntentRequest>`. */
  datatype IntentHandler = IntentHandler(id: nat, check: HandlerInput -> Result<bool>, handle: HandlerInput -> Result<SkillResponse>)

  /** An intent handler seen through `IRequestHandler<IntentRequest>`: its
      eligibility is always its own check, never the inherited default. */
  function IntentAsRequestHandler(ih: IntentHandler): (h: Handler)
    ensures h.id == ih.id && h.handle == ih.handle
    ensures !h.eligibility.Inherited?
    ensures forall input :: CanHandle(h, input) == ih.check(input)
  {
    Handler(ih.id, Overridden(ih.check), ih.handle)
  }

  /** The contract intent handlers are fetched under. */
  const IntentHandlers: Contract := RequestHandlers(IntentRequestType)
}

=== FILE: pipeline.dfy ===
/** The pipeline-behaviour chain: registered behaviours are reversed and
    folded around the terminal stage, so the first-registered behaviour ends
    up outermost. The behaviour variants stand for the implementations a
    skill registers; the exception-processing and interceptor behaviours are
    black boxes with the contracts stated below. */
module Pipeline {
  import opened Errors
  import opened Requests
  import opened Events

  /** `IExceptionHandler`: eligibility given the exception, and recovery. */
  datatype ExceptionHandler = ExceptionHandler(
    id: nat,
    canHandle: (HandlerInput, Exn) -> bool,
    handle: (HandlerInput, Exn) -> Result<SkillResponse>)

  /** `IRequestInterceptor`: may rewrite the shared input's contents. */
  datatype RequestInterceptor = RequestInterceptor(id: nat, process: HandlerInput -> Result<HandlerInput>)

  /** `IResponseInterceptor`: observes the response; `Some(e)` means it threw. */
  datatype ResponseInterceptor = ResponseInterceptor(id: nat, process: (HandlerInput, SkillResponse) -> Option<Exn>)

  datatype BehaviorKind =
    | PassThrough                                         // returns next()
    | ShortCircuit(response: SkillResponse)               // returns without calling next
    | Trace                                               // calls next, records Left on return
    | ExceptionProcess(handlers: seq<ExceptionHandler>)   // RequestExceptionProcessBehavior
    | RequestIntercept(requestInterceptors: seq<RequestInterceptor>)    // RequestInterceptorBehavior
    | ResponseIntercept(responseInterceptors: seq<ResponseInterceptor>)  // response interceptor behaviour

  /** An `IPipelineBehavior` instance; `name` identifies it in traces. */
  datatype Behavior = Behavior(name: string, kind: BehaviorKind)

  /** A `RequestHandlerDelegate`: the terminal `Handler()` or a behaviour
      closed over the next delegate. */
  datatype Chain = Terminal | Layer(behavior: Behavior, next: Chain)

  /** `Enumerable.Reverse`. */
  function Reverse<T>(s: seq<T>): (r: seq<T>)
    ensures |r| == |s|
    ensures forall k :: 0 <= k < |s| ==> r[k] == s[|s| - 1 - k]
  {
    if s == [] then [] else Reverse(s[1..]) + [s[0]]
  }

  /** The number of behaviour layers around the terminal stage. */
  function Layers(chain: Chain): nat {
    match chain
    case Terminal => 0
    case Layer(_, next) => 1 + Layers(next)
  }

  /** `Enumerable.Aggregate(seed, (next, pipeline) => () => pipeline.Handle(.., next))`:
      a left fold, each step wrapping the accumulated delegate. Every
      behaviour adds one layer, and the last one folded ends up outermost. */
  function Aggregate(seed: Chain, behaviors: seq<Behavior>): (r: Chain)
    ensures Layers(r) == Layers(seed) + |behaviors|
    ensures behaviors != [] ==> r.Layer? && r.behavior == behaviors[|behaviors| - 1]
    decreases |behaviors|
  {
    if behaviors == [] then seed else Aggregate(Layer(behaviors[0], seed), behaviors[1..])
  }

  /** The delegate the wrapper invokes for the registered behaviours: one
      layer per behaviour, the first-registered one outermost. */
  function Compose(behaviors: seq<Behavior>): (r: Chain)
    ensures Layers(r) == |behaviors|
    ensures behaviors != [] ==> r.Layer? && r.behavior == behaviors[0]
  {
    Aggregate(Terminal, Reverse(behaviors))
  }

  /** Reference nesting: `behaviors[0]` outermost, then the rest, around `inner`. */
  function Nest(behaviors: seq<Behavior>, inner: Chain): Chain
    decreases |behaviors|
  {
    if behaviors == [] then inner else Layer(behaviors[0], Nest(behaviors[1..], inner))
  }

  lemma {:induction false} NestAppend(behaviors: seq<Behavior>, b: Behavior, inner: Chain)
    ensures Nest(behaviors + [b], inner) == Nest(behaviors, Layer(b, inner))
    decreases |behaviors|
  {
    if behaviors != [] {
      assert (behaviors + [b])[1..] == behaviors[1..] + [b];
      NestAppend(behaviors[1..], b, inner);
    }
  }

  /** Folding the reversed list nests the original list, first element outermost. */
  lemma {:induction false} AggregateReversedIsNest(behaviors: seq<Behavior>, seed: Chain)
    ensures Aggregate(seed, Reverse(behaviors)) == Nest(behaviors, seed)
    decreases |behaviors|
  {
    if behaviors != [] {
      var n := |behaviors|;
      var init := behaviors[..n - 1];
      var last := behaviors[n - 1];
      assert Reverse(behaviors) == [last] + Reverse(init);
      assert Reverse(behaviors)[1..] == Reverse(init);
      AggregateReversedIsNest(init, Layer(last, seed));
      assert behaviors == init + [last];
      NestAppend(init, last, seed);
    }
  }

  /** The composed delegate is the registered list nested in registration
      order: the first-registered behaviour is the outermost layer. */
  lemma ComposeIsRegistrationOrder(behaviors: seq<Behavior>)
    ensures Compose(behaviors) == Nest(behaviors, Terminal)
    ensures behaviors == [] ==> Compose(behaviors) == Terminal
    ensures behaviors != [] ==> Compose(behaviors) == Layer(behaviors[0], Compose(behaviors[1..]))
  {
    AggregateReversedIsNest(behaviors, Terminal);
    if behaviors != [] {
      AggregateReversedIsNest(behaviors[1..], Terminal);
    }
  }

  /** The result of a sequence of steps that only touch the handler input. */
  datatype Step = Step(failure: Option<Exn>, trace: seq<Event>, input: HandlerInput)

  /** Request interceptors run one after another, each on the contents the
      previous one left; the first that throws stops the run. */
  function Intercept(interceptors: seq<RequestInterceptor>, input: HandlerInput): (s: Step)
    ensures |s.trace| <= |interceptors|
    ensures forall k :: 0 <= k < |s.trace| ==> s.trace[k].Intercepted? && s.trace[k].interceptor == interceptors[k].id
    ensures interceptors != [] ==> |s.trace| > 0 && s.trace[0].input == input
    ensures forall k :: 0 <= k < |s.trace| - 1 ==> interceptors[k].process(s.trace[k].input) == Ok(s.trace[k + 1].input)
    ensures s.failure.None? <==> |s.trace| == |interceptors| && (interceptors != [] ==> interceptors[|interceptors| - 1].process(s.trace[|s.trace| - 1].input) == Ok(s.input))
    ensures s.failure.Some? ==> 0 < |s.trace| && interceptors[|s.trace| - 1].process(s.trace[|s.trace| - 1].input) == Err(s.failure.value)
    ensures interceptors == [] ==> s == Step(None, [], input)
  {
    InterceptShape(interceptors, input);
    InterceptEnd(interceptors, input);
    InterceptRun(interceptors, input)
  }

  /** The interceptor loop itself. */
  function InterceptRun(interceptors: seq<RequestInterceptor>, input: HandlerInput): Step
    decreases |interceptors|
  {
    if interceptors == [] then Step(None, [], input)
    else
      var here := [Intercepted(interceptors[0].id, input)];
      match interceptors[0].process(input)
      case Err(e) => Step(Some(e), here, input)
      case Ok(next) =>
        var rest := InterceptRun(interceptors[1..], next);
        Step(rest.failure, here + rest.trace, rest.input)
  }

  /** The loop's trace: interceptor `k` is called on what interceptor `k - 1` produced. */
  lemma {:induction false} InterceptShape(interceptors: seq<RequestInterceptor>, input: HandlerInput)
    ensures var s := InterceptRun(interceptors, input);
            && |s.trace| <= |interceptors|
            && (interceptors != [] ==> |s.trace| > 0 && s.trace[0] == Intercepted(interceptors[0].id, input))
            && (forall k :: 0 <= k < |s.trace| ==> s.trace[k].Intercepted? && s.trace[k].interceptor == interceptors[k].id)
            && (forall k :: 0 <= k < |s.trace| - 1 ==> interceptors[k].process(s.trace[k].input) == Ok(s.trace[k + 1].input))
    decreases |interceptors|
  {
    if interceptors != [] && interceptors[0].process(input).Ok? {
      var next := interceptors[0].process(input).value;
      InterceptShape(interceptors[1..], next);
      var rest := InterceptRun(interceptors[1..], next);
      var trace := [Intercepted(interceptors[0].id, input)] + rest.trace;
      assert forall k :: 0 < k < |trace| ==> trace[k] == rest.trace[k - 1];
      assert forall k :: 0 < k < |interceptors| ==> interceptors[k] == interceptors[1..][k - 1];
    }
  }

  /** How the loop ends: it completes iff every call succeeded, and a failed
      run carries the exception of the last interceptor it reached. */
  lemma {:induction false} InterceptEnd(interceptors: seq<RequestInterceptor>, input: HandlerInput)
    ensures var s := InterceptRun(interceptors, input);
            && |s.trace| <= |interceptors|
            && (forall k :: 0 <= k < |s.trace| ==> s.trace[k].Intercepted?)
            && (s.failure.None? <==> |s.trace| == |interceptors| && (interceptors != [] ==> interceptors[|interceptors| - 1].process(s.trace[|s.trace| - 1].input) == Ok(s.input)))
            && (s.failure.Some? ==> 0 < |s.trace| && interceptors[|s.trace| - 1].process(s.trace[|s.trace| - 1].input) == Err(s.failure.value))
    decreases |interceptors|
  {
    InterceptShape(interceptors, input);
    if interceptors != [] && interceptors[0].process(input).Ok? {
      var next := interceptors[0].process(input).value;
      InterceptEnd(interceptors[1..], next);
      var rest := InterceptRun(interceptors[1..], next);
      var trace := [Intercepted(interceptors[0].id, input)] + rest.trace;
      if rest.trace != [] {
        assert trace[|trace| - 1] == rest.trace[|rest.trace| - 1];
        assert interceptors[|trace| - 1] == interceptors[1..][|rest.trace| - 1];
      }
    }
  }

  /** Response interceptors observe the produced response in order; the
      first that throws stops the run. The input is left as it was. */
  function Observe(interceptors: seq<ResponseInterceptor>, input: HandlerInput, response: SkillResponse): (s: Step)
    ensures s.input == input
    ensures s.failure.None? <==> forall k :: 0 <= k < |interceptors| ==> interceptors[k].process(input, response).None?
    ensures s.failure.Some? ==> && 0 < |s.trace| <= |interceptors|
                                && interceptors[|s.trace| - 1].process(input, response) == s.failure
                                && forall j :: 0 <= j < |s.trace| - 1 ==> interceptors[j].process(input, response).None?
    ensures s.failure.None? ==> s.trace == seq(|interceptors|, k requires 0 <= k < |interceptors| => Observed(interceptors[k].id, input))
    decreases |interceptors|
  {
    if interceptors == [] then Step(None, [], input)
    else
      var here := [Observed(interceptors[0].id, input)];
      match interceptors[0].process(input, response)
      case Some(e) => Step(Some(e), here, input)
      case None =>
        var rest := Observe(interceptors[1..], input, response);
        Step(rest.failure, here + rest.trace, input)
  }

  /** The exception behaviour's recovery: the first exception handler whose
      check accepts `e` produces the result; if none does, `e` is rethrown
      unchanged. */
  function Recover(handlers: seq<ExceptionHandler>, input: HandlerInput, e: Exn): (o: Outcome)
    ensures o.input == input
    ensures (forall k :: 0 <= k < |handlers| ==> !handlers[k].canHandle(input, e)) ==> o.result == Err(e)
    ensures forall k :: 0 <= k < |handlers| && handlers[k].canHandle(input, e)
              && (forall j :: 0 <= j < k ==> !handlers[j].canHandle(input, e))
              ==> o.result == handlers[k].handle(input, e)
    ensures AllCarry(o.trace, input)
    decreases |handlers|
  {
    if handlers == [] then Outcome(Err(e), [], input)
    else
      var asked := [Consulted(handlers[0].id, input)];
      if handlers[0].canHandle(input, e) then
        Outcome(handlers[0].handle(input, e), asked + [Recovered(handlers[0].id, input)], input)
      else
        Prepend(asked, Recover(handlers[1..], input, e))
  }

  /** Invoking a delegate. `terminal` is the wrapper's `Handler()`; `input`
      is the shared handler input's current contents. */
  function Run(chain: Chain, input: HandlerInput, terminal: HandlerInput -> Outcome): (o: Outcome)
    ensures chain.Layer? ==> 0 < |o.trace| && o.trace[0] == Entered(chain.behavior.name, input)
    decreases chain
  {
    match chain
    case Terminal => terminal(input)
    case Layer(b, next) =>
      var entered := [Entered(b.name, input)];
      match b.kind
      case PassThrough => Prepend(entered, Run(next, input, terminal))
      case ShortCircuit(r) => Outcome(Ok(r), entered, input)
      case Trace =>
        var o := Run(next, input, terminal);
        Outcome(o.result, entered + o.trace + (if o.result.Ok? then [Left(b.name)] else []), o.input)
      case ExceptionProcess(handlers) =>
        var o := Run(next, input, terminal);
        if o.result.Ok? then Prepend(entered, o)
        else Prepend(entered + o.trace, Recover(handlers, o.input, o.result.error))
      case RequestIntercept(interceptors) =>
        var s := Intercept(interceptors, input);
        if s.failure.Some? then Outcome(Err(s.failure.value), entered + s.trace, s.input)
        else Prepend(entered + s.trace, Run(next, s.input, terminal))
      case ResponseIntercept(interceptors) =>
        var o := Run(next, input, terminal);
        if o.result.Err? then Prepend(entered, o)
        else
          var s := Observe(interceptors, o.input, o.result.value);
          Outcome(if s.failure.Some? then Err(s.failure.value) else o.result, entered + o.trace + s.trace, o.input)
  }

  /** Behaviours that call `next` exactly once and return its result. */
  predicate Transparent(b: Behavior) {
    b.kind.PassThrough? || b.kind.Trace?
  }

  /** The `Entered` events of `behaviors`, outermost first. */
  function Entries(behaviors: seq<Behavior>, input: HandlerInput): seq<Event>
    decreases |behaviors|
  {
    if behaviors == [] then [] else [Entered(behaviors[0].name, input)] + Entries(behaviors[1..], input)
  }

  /** The `Left` events of the tracing behaviours of `behaviors`, innermost first. */
  function Exits(behaviors: seq<Behavior>): seq<Event>
    decreases |behaviors|
  {
    if behaviors == [] then []
    else Exits(behaviors[1..]) + (if behaviors[0].kind.Trace? then [Left(behaviors[0].name)] else [])
  }

  /** One pass-through or tracing layer: it is entered, runs `next` on the
      same input, and a tracing one records its return after a success. */
  lemma TransparentLayer(b: Behavior, next: Chain, input: HandlerInput, terminal: HandlerInput -> Outcome)
    requires Transparent(b)
    ensures var o := Run(next, input, terminal);
            Run(Layer(b, next), input, terminal)
            == Outcome(o.result, [Entered(b.name, input)] + o.trace + (if b.kind.Trace? && o.result.Ok? then [Left(b.name)] else []), o.input)
  {
  }

  lemma Regroup<T>(a: seq<T>, b: seq<T>, c: seq<T>, d: seq<T>, e: seq<T>)
    ensures a + (b + c + d) + e == (a + b) + c + (d + e)
    ensures c == [] ==> a + (b + d) + e == (a + b) + (d + e)
  {
  }

  lemma {:induction false} TransparentNest(behaviors: seq<Behavior>, input: HandlerInput, terminal: HandlerInput -> Outcome)
    requires forall k :: 0 <= k < |behaviors| ==> Transparent(behaviors[k])
    ensures var o := Run(Nest(behaviors, Terminal), input, terminal);
            var t := terminal(input);
            o == Outcome(t.result, Entries(behaviors, input) + t.trace + (if t.result.Ok? then Exits(behaviors) else []), t.input)
    decreases |behaviors|
  {
    if behaviors != [] {
      var b, rest := behaviors[0], behaviors[1..];
      var t := terminal(input);
      var exits := if t.result.Ok? then Exits(rest) else [];
      var own := if b.kind.Trace? && t.result.Ok? then [Left(b.name)] else [];
      TransparentNest(rest, input, terminal);
      var o := Run(Nest(rest, Terminal), input, terminal);
      assert o == Outcome(t.result, Entries(rest, input) + t.trace + exits, t.input);
      TransparentLayer(b, Nest(rest, Terminal), input, terminal);
      assert Nest(behaviors, Terminal) == Layer(b, Nest(rest, Terminal));
      var entered := [Entered(b.name, input)];
      assert Run(Nest(behaviors, Terminal), input, terminal) == Outcome(t.result, entered + o.trace + own, t.input);
      assert (if t.result.Ok? then Exits(behaviors) else []) == exits + own;
      assert Entries(behaviors, input) == entered + Entries(rest, input);
      Regroup(entered, Entries(rest, input), t.trace, exits, own);
    }
  }

  /** Behaviours that call `next` once run strictly nested: every behaviour
      is entered in registration order, then the terminal stage runs with the
      same input, then the tracing behaviours return in reverse order. With no
      behaviours the result is the terminal stage's own. */
  lemma TransparentChainTrace(behaviors: seq<Behavior>, input: HandlerInput, terminal: HandlerInput -> Outcome)
    requires forall k :: 0 <= k < |behaviors| ==> Transparent(behaviors[k])
    ensures var o := Run(Compose(behaviors), input, terminal);
            var t := terminal(input);
            o == Outcome(t.result, Entries(behaviors, input) + t.trace + (if t.result.Ok? then Exits(behaviors) else []), t.input)
    ensures behaviors == [] ==> Run(Compose(behaviors), input, terminal) == terminal(input)
  {
    ComposeIsRegistrationOrder(behaviors);
    TransparentNest(behaviors, input, terminal);
  }

  lemma {:induction false} ShortCircuitNest(behaviors: seq<Behavior>, k: nat, input: HandlerInput, terminal: HandlerInput -> Outcome)
    requires k < |behaviors| && behaviors[k].kind.ShortCircuit?
    requires forall j :: 0 <= j < k ==> Transparent(behaviors[j])
    ensures Run(Nest(behaviors, Terminal), input, terminal)
            == Outcome(Ok(behaviors[k].kind.response), Entries(behaviors[..k + 1], input) + Exits(behaviors[..k]), input)
    decreases k
  {
    var b, rest := behaviors[0], behaviors[1..];
    assert Nest(behaviors, Terminal) == Layer(b, Nest(rest, Terminal));
    if k > 0 {
      ShortCircuitNest(rest, k - 1, input, terminal);
      TransparentLayer(b, Nest(rest, Terminal), input, terminal);
      PeelPrefix(behaviors, k, input);
      var entered := [Entered(b.name, input)];
      var own := if b.kind.Trace? then [Left(b.name)] else [];
      Regroup(entered, Entries(rest[..k], input), [], Exits(rest[..k - 1]), own);
    } else {
      assert Entries(behaviors[..1], input) == [Entered(b.name, input)];
    }
  }

  /** The entries and exits of a prefix, split off at its first behaviour. */
  lemma PeelPrefix(behaviors: seq<Behavior>, k: nat, input: HandlerInput)
    requires 0 < k < |behaviors|
    ensures Entries(behaviors[..k + 1], input) == [Entered(behaviors[0].name, input)] + Entries(behaviors[1..][..k], input)
    ensures Exits(behaviors[..k])
            == Exits(behaviors[1..][..k - 1]) + (if behaviors[0].kind.Trace? then [Left(behaviors[0].name)] else [])
  {
    assert behaviors[1..][..k] == behaviors[..k + 1][1..];
    assert behaviors[1..][..k - 1] == behaviors[..k][1..];
  }

  /** A behaviour that returns without calling `next` cuts the chain: the
      terminal stage never runs, the inner behaviours are never entered, and
      the result is the behaviour's own response. */
  lemma ShortCircuitSkipsTerminal(behaviors: seq<Behavior>, k: nat, input: HandlerInput, terminal: HandlerInput -> Outcome)
    requires k < |behaviors| && behaviors[k].kind.ShortCircuit?
    requires forall j :: 0 <= j < k ==> Transparent(behaviors[j])
    ensures var o := Run(Compose(behaviors), input, terminal);
            && o.result == Ok(behaviors[k].kind.response)
            && o.trace == Entries(behaviors[..k + 1], input) + Exits(behaviors[..k])
  {
    ComposeIsRegistrationOrder(behaviors);
    ShortCircuitNest(behaviors, k, input, terminal);
  }

  /** A behaviour that returns without calling `next` cuts the chain behind
      ANY behaviours in front of it: the outcome, for every input, is the
      same whatever the terminal stage does, so `Handler()` never runs. */
  lemma {:induction false} ShortCircuitAnyPrefix(behaviors: seq<Behavior>, k: nat, t1: HandlerInput -> Outcome, t2: HandlerInput -> Outcome)
    requires k < |behaviors| && behaviors[k].kind.ShortCircuit?
    ensures forall input :: Run(Nest(behaviors, Terminal), input, t1) == Run(Nest(behaviors, Terminal), input, t2)
    decreases k
  {
    if k > 0 {
      ShortCircuitAnyPrefix(behaviors[1..], k - 1, t1, t2);
    }
  }

  /** The events of exception recovery are consultations and recoveries only. */
  lemma {:induction false} RecoverQuiet(handlers: seq<ExceptionHandler>, input: HandlerInput, e: Exn)
    ensures NoHandlerActivity(Recover(handlers, input, e).trace)
    decreases |handlers|
  {
    if handlers != [] && !handlers[0].canHandle(input, e) {
      RecoverQuiet(handlers[1..], input, e);
      var rest := Recover(handlers[1..], input, e).trace;
      var tr := [Consulted(handlers[0].id, input)] + rest;
      assert forall j :: 0 < j < |tr| ==> tr[j] == rest[j - 1];
    }
  }

  /** The events of response interception are observations only. */
  lemma {:induction false} ObserveQuiet(interceptors: seq<ResponseInterceptor>, input: HandlerInput, response: SkillResponse)
    ensures NoHandlerActivity(Observe(interceptors, input, response).trace)
    decreases |interceptors|
  {
    if interceptors != [] && interceptors[0].process(input, response).None? {
      ObserveQuiet(interceptors[1..], input, response);
      var rest := Observe(interceptors[1..], input, response).trace;
      var tr := [Observed(interceptors[0].id, input)] + rest;
      assert forall j :: 0 < j < |tr| ==> tr[j] == rest[j - 1];
    }
  }

  /** Whatever behaviours stand in front of a short-circuiting one, the
      chain's trace holds no handler lookup and no handler call. */
  lemma {:induction false} ShortCircuitQuiet(behaviors: seq<Behavior>, k: nat, input: HandlerInput, terminal: HandlerInput -> Outcome)
    requires k < |behaviors| && behaviors[k].kind.ShortCircuit?
    ensures NoHandlerActivity(Run(Nest(behaviors, Terminal), input, terminal).trace)
    decreases k
  {
    var b := behaviors[0];
    var next := Nest(behaviors[1..], Terminal);
    assert Nest(behaviors, Terminal) == Layer(b, next);
    var entered := [Entered(b.name, input)];
    if k > 0 {
      match b.kind
      case PassThrough =>
        ShortCircuitQuiet(behaviors[1..], k - 1, input, terminal);
        QuietConcat(entered, Run(next, input, terminal).trace);
      case ShortCircuit(_) =>
      case Trace =>
        ShortCircuitQuiet(behaviors[1..], k - 1, input, terminal);
        var o := Run(next, input, terminal);
        QuietConcat(entered, o.trace);
        QuietConcat(entered + o.trace, if o.result.Ok? then [Left(b.name)] else []);
      case ExceptionProcess(handlers) =>
        ShortCircuitQuiet(behaviors[1..], k - 1, input, terminal);
        var o := Run(next, input, terminal);
        QuietConcat(entered, o.trace);
        if o.result.Err? {
          RecoverQuiet(handlers, o.input, o.result.error);
          QuietConcat(entered + o.trace, Recover(handlers, o.input, o.result.error).trace);
        }
      case RequestIntercept(ris) =>
        var s := Intercept(ris, input);
        QuietConcat(entered, s.trace);
        if s.failure.None? {
          ShortCircuitQuiet(behaviors[1..], k - 1, s.input, terminal);
          QuietConcat(entered + s.trace, Run(next, s.input, terminal).trace);
        }
      case ResponseIntercept(ris) =>
        ShortCircuitQuiet(behaviors[1..], k - 1, input, terminal);
        var o := Run(next, input, terminal);
        QuietConcat(entered, o.trace);
        if o.result.Ok? {
          ObserveQuiet(ris, o.input, o.result.value);
          QuietConcat(entered + o.trace, Observe(ris, o.input, o.result.value).trace);
        }
    }
  }

  lemma QuietConcat(a: seq<Event>, b: seq<Event>)
    requires NoHandlerActivity(a) && NoHandlerActivity(b)
    ensures NoHandlerActivity(a + b)
  {
    assert forall j :: |a| <= j < |a + b| ==> (a + b)[j] == b[j - |a|];
  }

  lemma {:induction false} EntriesCarry(behaviors: seq<Behavior>, input: HandlerInput)
    ensures |Entries(behaviors, input)| == |behaviors|
    ensures forall k :: 0 <= k < |behaviors| ==> Entries(behaviors, input)[k] == Entered(behaviors[k].name, input)
    decreases |behaviors|
  {
    if behaviors != [] {
      EntriesCarry(behaviors[1..], input);
    }
  }

  lemma {:induction false} ExitsHaveNoActivity(behaviors: seq<Behavior>)
    ensures forall k :: 0 <= k < |Exits(behaviors)| ==> Exits(behaviors)[k].Left?
    decreases |behaviors|
  {
    if behaviors != [] {
      ExitsHaveNoActivity(behaviors[1..]);
    }
  }

  /** A terminal stage that keeps the input and hands it to everything it calls. */
  ghost predicate KeepsInput(terminal: HandlerInput -> Outcome) {
    forall i :: terminal(i).input == i && AllCarry(terminal(i).trace, i)
  }

  lemma {:induction false} SharedInputNest(behaviors: seq<Behavior>, input: HandlerInput, terminal: HandlerInput -> Outcome)
    requires forall k :: 0 <= k < |behaviors| ==> !behaviors[k].kind.RequestIntercept?
    requires KeepsInput(terminal)
    ensures var o := Run(Nest(behaviors, Terminal), input, terminal);
            o.input == input && AllCarry(o.trace, input)
    decreases |behaviors|
  {
    if behaviors != [] {
      SharedInputNest(behaviors[1..], input, terminal);
      var o := Run(Nest(behaviors[1..], Terminal), input, terminal);
      var b := behaviors[0];
      if b.kind.ResponseIntercept? && o.result.Ok? {
        ObserveCarries(b.kind.responseInterceptors, input, o.result.value);
      }
    } else {
      assert terminal(input).input == input && AllCarry(terminal(input).trace, input);
    }
  }

  lemma {:induction false} ObserveCarries(interceptors: seq<ResponseInterceptor>, input: HandlerInput, response: SkillResponse)
    ensures AllCarry(Observe(interceptors, input, response).trace, input)
    decreases |interceptors|
  {
    if interceptors != [] {
      ObserveCarries(interceptors[1..], input, response);
    }
  }

  /** One response-interceptor layer: `next` runs, then the interceptors
      observe a successful response. */
  lemma ObservingLayer(b: Behavior, next: Chain, input: HandlerInput, terminal: HandlerInput -> Outcome)
    requires b.kind.ResponseIntercept?
    ensures var o := Run(next, input, terminal);
            var r := Run(Layer(b, next), input, terminal).result;
            && (o.result.Err? ==> r == o.result)
            && (o.result.Ok? ==> var s := Observe(b.kind.responseInterceptors, o.input, o.result.value);
                                 r == if s.failure.Some? then Err(s.failure.value) else o.result)
  {
  }

  /** A response-interceptor layer whose interceptors all accept the inner
      response returns that response unchanged; an inner failure passes
      through untouched; the first interceptor that throws replaces the
      response with its exception. */
  lemma ResponseInterceptLayer(b: Behavior, next: Chain, input: HandlerInput, terminal: HandlerInput -> Outcome)
    requires b.kind.ResponseIntercept?
    ensures var o := Run(next, input, terminal);
            var ris := b.kind.responseInterceptors;
            var r := Run(Layer(b, next), input, terminal).result;
            && (o.result.Err? ==> r == o.result)
            && (o.result.Ok? && (forall k :: 0 <= k < |ris| ==> ris[k].process(o.input, o.result.value).None?) ==> r == o.result)
            && (forall k :: 0 <= k < |ris| && o.result.Ok? && ris[k].process(o.input, o.result.value).Some?
                  && (forall j :: 0 <= j < k ==> ris[j].process(o.input, o.result.value).None?)
                  ==> r == Err(ris[k].process(o.input, o.result.value).value))
  {
    ObservingLayer(b, next, input, terminal);
    var o := Run(next, input, terminal);
    if o.result.Ok? {
      var ris := b.kind.responseInterceptors;
      var s := Observe(ris, o.input, o.result.value);
      forall k | 0 <= k < |ris| && ris[k].process(o.input, o.result.value).Some?
                 && (forall j :: 0 <= j < k ==> ris[j].process(o.input, o.result.value).None?)
        ensures s.failure == ris[k].process(o.input, o.result.value)
      {
        assert s.failure.Some?;
        assert |s.trace| - 1 == k;
      }
    }
  }

  /** Unless a request interceptor rewrites it, the handler input resolved at
      entry is the one every behaviour, exception handler and terminal call
      receives, and it is unchanged at the end. */
  lemma SharedInputThroughChain(behaviors: seq<Behavior>, input: HandlerInput, terminal: HandlerInput -> Outcome)
    requires forall k :: 0 <= k < |behaviors| ==> !behaviors[k].kind.RequestIntercept?
    requires KeepsInput(terminal)
    ensures var o := Run(Compose(behaviors), input, terminal);
            o.input == input && AllCarry(o.trace, input)
  {
    ComposeIsRegistrationOrder(behaviors);
    SharedInputNest(behaviors, input, terminal);
  }

  /** A request interceptor placed first rewrites the input before the rest
      of the chain runs: the terminal stage sees the rewritten contents. */
  lemma InterceptedInputReachesTerminal(interceptors: seq<RequestInterceptor>, name: string, rest: seq<Behavior>,
                                        input: HandlerInput, terminal: HandlerInput -> Outcome)
    requires Intercept(interceptors, input).failure.None?
    requires forall k :: 0 <= k < |rest| ==> Transparent(rest[k])
    ensures var rewritten := Intercept(interceptors, input).input;
            Run(Compose([Behavior(name, RequestIntercept(interceptors))] + rest), input, terminal).result
            == terminal(rewritten).result
  {
    var bs := [Behavior(name, RequestIntercept(interceptors))] + rest;
    ComposeIsRegistrationOrder(bs);
    assert bs[1..] == rest;
    TransparentChainTrace(rest, Intercept(interceptors, input).input, terminal);
  }

  /** The exception behaviour registered first catches a failure of the
      whole inner chain: an exception some exception handler accepts is
      recovered by the first such handler, any other one propagates
      unchanged. */
  lemma ExceptionBehaviorOutermost(handlers: seq<ExceptionHandler>, name: string, rest: seq<Behavior>,
                                   input: HandlerInput, terminal: HandlerInput -> Outcome)
    requires forall k :: 0 <= k < |rest| ==> Transparent(rest[k])
    requires terminal(input).input == input
    ensures var o := Run(Compose([Behavior(name, ExceptionProcess(handlers))] + rest), input, terminal);
            var t := terminal(input);
            && (t.result.Ok? ==> o.result == t.result)
            && (t.result.Err? && (forall k :: 0 <= k < |handlers| ==> !handlers[k].canHandle(input, t.result.error))
                ==> o.result == t.result)
            && (forall k :: 0 <= k < |handlers| && t.result.Err? && handlers[k].canHandle(input, t.result.error)
                  && (forall j :: 0 <= j < k ==> !handlers[j].canHandle(input, t.result.error))
                  ==> o.result == handlers[k].handle(input, t.result.error))
  {
    var bs := [Behavior(name, ExceptionProcess(handlers))] + rest;
    ComposeIsRegistrationOrder(bs);
    assert bs[1..] == rest;
    TransparentChainTrace(rest, input, terminal);
  }
}

=== FILE: request_handler_wrapper.dfy ===
/** `RequestHandlerWrapperImpl<T>.Handle`: resolve the handler input once,
    define the terminal stage that picks the first eligible typed handler
    (else the default handler, if it is eligible), and run it inside the
    composed pipeline. */
module RequestHandlerWrapper {
  import opened Errors
  import opened Requests
  import opened Handlers
  import opened Events
  import opened HandlerBase
  import Pipeline

  /** A wrapper instance for payload type `requestType`; `instance` stands
      for its object identity. */
  datatype Wrapper = Wrapper(instance: nat, requestType: TypeTag)

  /** What `Handle` yields: the awaited result and the events it caused. */
  datatype Reply = Reply(result: Result<SkillResponse>, trace: seq<Event>)

  /** The failure raised when neither a typed nor the default handler runs. */
  function HandlerNotFound(t: TypeTag): Exn {
    InvalidOperation(NotFoundMessage(RequestHandlers(t)), None)
  }

  /** The default-handler branch of `Handler()`. */
  function Fallback(reg: Registry, input: HandlerInput, t: TypeTag): (o: Outcome)
    ensures o.input == input
    ensures |o.trace| > 0 && o.trace[0] == Resolve(DefaultRequestHandler)
    ensures o.result.Ok? ==> DefaultUsable(reg, input) && o.result == reg.defaultHandler.value.handle(input)
    ensures o.result.Ok? ==> o.trace[|o.trace| - 1] == HandleCalled(DefaultRole, reg.defaultHandler.value.id, input)
    ensures DefaultUsable(reg, input) ==> AnsweredBy(o, DefaultRole, reg.defaultHandler.value)
    ensures reg.defaultHandler.Threw? ==> o.result == Err(reg.defaultHandler.error)
    ensures reg.defaultHandler.Resolved? && CanHandle(reg.defaultHandler.value, input).Err?
            ==> o.result == Err(CanHandle(reg.defaultHandler.value, input).error)
  {
    var looked := [Resolve(DefaultRequestHandler)];
    match reg.defaultHandler
    case Threw(e) => Outcome(Err(e), looked, input)
    case Absent => Outcome(Err(HandlerNotFound(t)), looked, input)
    case Resolved(d) =>
      var asked := looked + [CanHandleCalled(DefaultRole, d.id, input)];
      match CanHandle(d, input)
      case Err(e) => Outcome(Err(e), asked, input)
      case Ok(eligible) =>
        if eligible then Outcome(d.handle(input), asked + [HandleCalled(DefaultRole, d.id, input)], input)
        else Outcome(Err(HandlerNotFound(t)), asked, input)
  }

  /** `o`'s result is what `h.Handle` returned or threw, and its trace ends
      with that call of `h.Handle` in `role`. */
  predicate AnsweredBy(o: Outcome, role: Role, h: Handler) {
    && 0 < |o.trace|
    && o.trace[|o.trace| - 1] == HandleCalled(role, h.id, o.input)
    && o.result == h.handle(o.input)
  }

  /** The `foreach` over the typed handlers, in registry order. */
  function Select(handlers: seq<Handler>, input: HandlerInput, reg: Registry, t: TypeTag): (o: Outcome)
    ensures o.input == input
    ensures o.result.Ok? ==> 0 < |o.trace| && o.trace[|o.trace| - 1].HandleCalled?
    ensures o.result.Ok? ==>
              || (exists k :: 0 <= k < |handlers| && CanHandle(handlers[k], input) == Ok(true)
                                                 && AnsweredBy(o, TypedRole, handlers[k]))
              || (DefaultUsable(reg, input) && AnsweredBy(o, DefaultRole, reg.defaultHandler.value))
    decreases |handlers|
  {
    if handlers == [] then Fallback(reg, input, t)
    else
      var h := handlers[0];
      var asked := [CanHandleCalled(TypedRole, h.id, input)];
      match CanHandle(h, input)
      case Err(e) => Outcome(Err(e), asked, input)
      case Ok(eligible) =>
        if eligible then Outcome(h.handle(input), asked + [HandleCalled(TypedRole, h.id, input)], input)
        else Prepend(asked, Select(handlers[1..], input, reg, t))
  }

  /** The local `Handler()`: fetch the typed handlers, then select. */
  function SelectAndRun(reg: Registry, t: TypeTag, input: HandlerInput): (o: Outcome)
    ensures o.input == input
    ensures |o.trace| > 0 && o.trace[0] == Resolve(RequestHandlers(t))
    ensures o.result.Ok? ==> reg.handlers(t).Resolved? && o.trace[|o.trace| - 1].HandleCalled?
  {
    var looked := [Resolve(RequestHandlers(t))];
    match GetHandlers(RequestHandlers(t), reg.handlers(t))
    case Err(e) => Outcome(Err(e), looked, input)
    case Ok(handlers) => Prepend(looked, Select(handlers, input, reg, t))
  }

  /** The `Handler()` delegate of a wrapper for payload type `t`. */
  function TerminalStage(reg: Registry, t: TypeTag): HandlerInput -> Outcome {
    i => SelectAndRun(reg, t, i)
  }

  /** The input `GetInstance<IHandlerInput>` yields when it does not throw. */
  function ResolvedInput(lookup: Resolution<HandlerInput>): HandlerInput {
    if lookup.Resolved? then lookup.value else NullInput
  }

  /** `RequestHandlerWrapperImpl<T>.Handle(request, ct, serviceFactory)`.
      The `request` argument is not consulted: the handler input comes from
      the registry. */
  function Handle(w: Wrapper, request: SkillRequest, reg: Registry): (r: Reply)
    ensures reg.handlerInput.Threw? ==> r == Reply(Err(reg.handlerInput.error), [Resolve(HandlerInputService)])
    ensures !reg.handlerInput.Threw? && reg.behaviors.Threw? ==> r.result == Err(reg.behaviors.error)
    ensures !reg.handlerInput.Threw? && reg.behaviors.Absent? ==> r.result == Err(ArgumentNull("source"))
    ensures !reg.handlerInput.Threw? ==> |r.trace| >= 2 && r.trace[..2] == [Resolve(HandlerInputService), Resolve(PipelineBehaviors)]
  {
    var resolvedInput := [Resolve(HandlerInputService)];
    if reg.handlerInput.Threw? then Reply(Err(reg.handlerInput.error), resolvedInput)
    else
      var input := ResolvedInput(reg.handlerInput);
      var resolved := resolvedInput + [Resolve(PipelineBehaviors)];
      match reg.behaviors
      case Threw(e) => Reply(Err(e), resolved)
      case Absent => Reply(Err(ArgumentNull("source")), resolved)
      case Resolved(behaviors) =>
        var o := Pipeline.Run(Pipeline.Compose(behaviors), input, TerminalStage(reg, w.requestType));
        Reply(o.result, resolved + o.trace)
  }

  // ---------------------------------------------------------------------
  // Selection

  /** The first `n` typed handlers all answer `CanHandle` with false. */
  ghost predicate Declines(handlers: seq<Handler>, input: HandlerInput, n: nat)
    requires n <= |handlers|
  {
    forall j :: 0 <= j < n ==> CanHandle(handlers[j], input) == Ok(false)
  }

  /** The eligibility questions put to `handlers`, in order. */
  function Asks(handlers: seq<Handler>, input: HandlerInput): seq<Event> {
    seq(|handlers|, k requires 0 <= k < |handlers| => CanHandleCalled(TypedRole, handlers[k].id, input))
  }

  /** The default handler is registered and answers `CanHandle` with true. */
  ghost predicate DefaultUsable(reg: Registry, input: HandlerInput) {
    reg.defaultHandler.Resolved? && CanHandle(reg.defaultHandler.value, input) == Ok(true)
  }

  /** The default handler's `Handle` was called. */
  ghost predicate DefaultRan(trace: seq<Event>) {
    exists k :: 0 <= k < |trace| && trace[k].HandleCalled? && trace[k].role == DefaultRole
  }

  /** Typed handlers are asked in registry order; the first that answers true
      is the only one whose `Handle` runs, and its response is the result.
      The handlers after it are never asked. */
  lemma {:induction false} FirstEligibleHandlerWins(handlers: seq<Handler>, input: HandlerInput, reg: Registry, t: TypeTag, k: nat)
    requires k < |handlers|
    requires Declines(handlers, input, k)
    requires CanHandle(handlers[k], input) == Ok(true)
    ensures Select(handlers, input, reg, t)
            == Outcome(handlers[k].handle(input),
                       Asks(handlers[..k + 1], input) + [HandleCalled(TypedRole, handlers[k].id, input)],
                       input)
    decreases k
  {
    if k > 0 {
      FirstEligibleHandlerWins(handlers[1..], input, reg, t, k - 1);
      assert Asks(handlers[..k + 1], input) == [CanHandleCalled(TypedRole, handlers[0].id, input)] + Asks(handlers[1..][..k], input);
    } else {
      assert Asks(handlers[..1], input) == [CanHandleCalled(TypedRole, handlers[0].id, input)];
    }
  }

  /** A typed handler whose `CanHandle` throws ends the scan with that same
      exception: the handlers after it are not asked and no handler runs. */
  lemma {:induction false} ThrowingCheckStopsScan(handlers: seq<Handler>, input: HandlerInput, reg: Registry, t: TypeTag, k: nat, e: Exn)
    requires k < |handlers|
    requires Declines(handlers, input, k)
    requires CanHandle(handlers[k], input) == Err(e)
    ensures Select(handlers, input, reg, t) == Outcome(Err(e), Asks(handlers[..k + 1], input), input)
    decreases k
  {
    if k > 0 {
      ThrowingCheckStopsScan(handlers[1..], input, reg, t, k - 1, e);
      assert Asks(handlers[..k + 1], input) == [CanHandleCalled(TypedRole, handlers[0].id, input)] + Asks(handlers[1..][..k], input);
    } else {
      assert Asks(handlers[..1], input) == [CanHandleCalled(TypedRole, handlers[0].id, input)];
    }
  }

  /** When every typed handler declines, all of them have been asked and the
      outcome is the default-handler branch's. */
  lemma {:induction false} NoEligibleHandlerFallsBack(handlers: seq<Handler>, input: HandlerInput, reg: Registry, t: TypeTag)
    requires Declines(handlers, input, |handlers|)
    ensures Select(handlers, input, reg, t) == Prepend(Asks(handlers, input), Fallback(reg, input, t))
    decreases |handlers|
  {
    if handlers != [] {
      var rest := handlers[1..];
      DeclinesTail(handlers, input);
      NoEligibleHandlerFallsBack(rest, input, reg, t);
      DecliningHeadIsSkipped(handlers, input, reg, t);
      AsksTail(handlers, input);
      PrependTwice([CanHandleCalled(TypedRole, handlers[0].id, input)], Asks(rest, input), Fallback(reg, input, t));
    }
  }

  lemma DeclinesTail(handlers: seq<Handler>, input: HandlerInput)
    requires handlers != [] && Declines(handlers, input, |handlers|)
    ensures Declines(handlers[1..], input, |handlers| - 1)
  {
    forall j | 0 <= j < |handlers| - 1 ensures CanHandle(handlers[1..][j], input) == Ok(false) {
      assert handlers[1..][j] == handlers[j + 1];
    }
  }

  lemma AsksTail(handlers: seq<Handler>, input: HandlerInput)
    requires handlers != []
    ensures Asks(handlers, input) == [CanHandleCalled(TypedRole, handlers[0].id, input)] + Asks(handlers[1..], input)
  {
  }

  /** One step of the scan: a first handler that declines is asked and passed over. */
  lemma DecliningHeadIsSkipped(handlers: seq<Handler>, input: HandlerInput, reg: Registry, t: TypeTag)
    requires handlers != [] && CanHandle(handlers[0], input) == Ok(false)
    ensures Select(handlers, input, reg, t)
         == Prepend([CanHandleCalled(TypedRole, handlers[0].id, input)], Select(handlers[1..], input, reg, t))
  {
  }

  lemma FallbackDefaultRan(reg: Registry, input: HandlerInput, t: TypeTag)
    ensures DefaultRan(Fallback(reg, input, t).trace) <==> DefaultUsable(reg, input)
  {
    var tr := Fallback(reg, input, t).trace;
    if DefaultUsable(reg, input) {
      assert tr[2].HandleCalled? && tr[2].role == DefaultRole;
    }
  }

  lemma {:induction false} SelectDefaultRan(handlers: seq<Handler>, input: HandlerInput, reg: Registry, t: TypeTag)
    ensures DefaultRan(Select(handlers, input, reg, t).trace)
            <==> Declines(handlers, input, |handlers|) && DefaultUsable(reg, input)
    decreases |handlers|
  {
    if handlers == [] {
      FallbackDefaultRan(reg, input, t);
    } else {
      var h := handlers[0];
      var o := Select(handlers, input, reg, t);
      match CanHandle(h, input)
      case Err(e) =>
        assert !Declines(handlers, input, |handlers|);
        assert o.trace == [CanHandleCalled(TypedRole, h.id, input)];
      case Ok(eligible) =>
        if eligible {
          assert !Declines(handlers, input, |handlers|);
          assert o.trace == [CanHandleCalled(TypedRole, h.id, input), HandleCalled(TypedRole, h.id, input)];
        } else {
          var rest := Select(handlers[1..], input, reg, t);
          SelectDefaultRan(handlers[1..], input, reg, t);
          assert o.trace == [CanHandleCalled(TypedRole, h.id, input)] + rest.trace;
          if DefaultRan(rest.trace) {
            var k :| 0 <= k < |rest.trace| && rest.trace[k].HandleCalled? && rest.trace[k].role == DefaultRole;
            assert o.trace[k + 1] == rest.trace[k];
          }
          if DefaultRan(o.trace) {
            var k :| 0 <= k < |o.trace| && o.trace[k].HandleCalled? && o.trace[k].role == DefaultRole;
            assert k > 0 && rest.trace[k - 1] == o.trace[k];
          }
          assert Declines(handlers, input, |handlers|) <==> Declines(handlers[1..], input, |handlers| - 1) by {
            if Declines(handlers[1..], input, |handlers| - 1) {
              forall j | 0 <= j < |handlers| ensures CanHandle(handlers[j], input) == Ok(false) {
                if j > 0 { assert handlers[j] == handlers[1..][j - 1]; }
              }
            }
          }
        }
    }
  }

  /** The default handler runs iff the typed handlers could be fetched and
      all of them decline, a default handler is registered, and it answers
      `CanHandle` with true. */
  lemma DefaultRunsIff(reg: Registry, t: TypeTag, input: HandlerInput)
    ensures DefaultRan(SelectAndRun(reg, t, input).trace)
            <==> && reg.handlers(t).Resolved?
                 && Declines(reg.handlers(t).value, input, |reg.handlers(t).value|)
                 && DefaultUsable(reg, input)
  {
    var o := SelectAndRun(reg, t, input);
    if reg.handlers(t).Resolved? {
      var hs := reg.handlers(t).value;
      var s := Select(hs, input, reg, t);
      SelectDefaultRan(hs, input, reg, t);
      assert o.trace == [Resolve(RequestHandlers(t))] + s.trace;
      if DefaultRan(s.trace) {
        var k :| 0 <= k < |s.trace| && s.trace[k].HandleCalled? && s.trace[k].role == DefaultRole;
        assert o.trace[k + 1] == s.trace[k];
      }
      if DefaultRan(o.trace) {
        var k :| 0 <= k < |o.trace| && o.trace[k].HandleCalled? && o.trace[k].role == DefaultRole;
        assert k > 0 && s.trace[k - 1] == o.trace[k];
      }
    } else {
      assert o.trace == [Resolve(RequestHandlers(t))];
    }
  }

  /** With every typed handler declining and no usable default (none
      registered, or one that declines), the terminal stage fails with the
      handler-not-found `InvalidOperationException`. */
  lemma NotFoundWithoutUsableDefault(reg: Registry, t: TypeTag, input: HandlerInput)
    requires reg.handlers(t).Resolved?
    requires Declines(reg.handlers(t).value, input, |reg.handlers(t).value|)
    requires reg.defaultHandler.Absent?
             || (reg.defaultHandler.Resolved? && CanHandle(reg.defaultHandler.value, input) == Ok(false))
    ensures SelectAndRun(reg, t, input).result == Err(HandlerNotFound(t))
    ensures IsInvalidOperation(SelectAndRun(reg, t, input).result.error)
  {
    NoEligibleHandlerFallsBack(reg.handlers(t).value, input, reg, t);
  }

  /** A default handler that keeps the inherited `CanHandle` is eligible
      whenever it is reached: its response is the result. */
  lemma InheritedDefaultRunsWhenReached(reg: Registry, t: TypeTag, input: HandlerInput)
    requires reg.handlers(t).Resolved?
    requires Declines(reg.handlers(t).value, input, |reg.handlers(t).value|)
    requires reg.defaultHandler.Resolved? && reg.defaultHandler.value.eligibility.Inherited?
    ensures SelectAndRun(reg, t, input).result == reg.defaultHandler.value.handle(input)
  {
    NoEligibleHandlerFallsBack(reg.handlers(t).value, input, reg, t);
  }

  /** Whatever its `CanHandle` is, a default handler that accepts the input
      answers, with its own response or exception, once every typed handler
      has declined. */
  lemma UsableDefaultAnswersWhenReached(reg: Registry, t: TypeTag, input: HandlerInput)
    requires reg.handlers(t).Resolved?
    requires Declines(reg.handlers(t).value, input, |reg.handlers(t).value|)
    requires DefaultUsable(reg, input)
    ensures AnsweredBy(SelectAndRun(reg, t, input), DefaultRole, reg.defaultHandler.value)
  {
    NoEligibleHandlerFallsBack(reg.handlers(t).value, input, reg, t);
  }

  /** A typed handler that keeps the inherited `CanHandle` is always
      eligible: once the scan reaches it, it is the one that runs. */
  lemma InheritedHandlerIsChosen(reg: Registry, t: TypeTag, input: HandlerInput, k: nat)
    requires reg.handlers(t).Resolved? && k < |reg.handlers(t).value|
    requires Declines(reg.handlers(t).value, input, k)
    requires reg.handlers(t).value[k].eligibility.Inherited?
    ensures SelectAndRun(reg, t, input).result == reg.handlers(t).value[k].handle(input)
  {
    FirstEligibleHandlerWins(reg.handlers(t).value, input, reg, t, k);
  }

  /** An intent handler is asked through its own check: when that check
      declines, the scan moves on to the next handler, although the same
      handler keeping the inherited `CanHandle` would have run. */
  lemma {:induction false} DecliningIntentHandlerIsSkipped(ih: IntentHandler, rest: seq<Handler>, input: HandlerInput, reg: Registry, t: TypeTag)
    requires ih.check(input) == Ok(false)
    ensures Select([IntentAsRequestHandler(ih)] + rest, input, reg, t)
            == Prepend([CanHandleCalled(TypedRole, ih.id, input)], Select(rest, input, reg, t))
    ensures Select([Handler(ih.id, Inherited, ih.handle)] + rest, input, reg, t).result == ih.handle(input)
  {
    var hs := [IntentAsRequestHandler(ih)] + rest;
    assert CanHandle(hs[0], input) == Ok(false);
    assert hs[1..] == rest;
    var inherited := [Handler(ih.id, Inherited, ih.handle)] + rest;
    assert CanHandle(inherited[0], input) == Ok(true);
  }

  /** Registry failures while fetching the typed handlers surface as the
      typed `InvalidOperationException`s of `GetHandlers`, and no handler is
      asked anything. */
  lemma RegistryFailureSurfaces(reg: Registry, t: TypeTag, input: HandlerInput)
    requires !reg.handlers(t).Resolved?
    ensures var o := SelectAndRun(reg, t, input);
            && o.trace == [Resolve(RequestHandlers(t))]
            && (reg.handlers(t).Threw? ==>
                  o.result == Err(InvalidOperation(ConstructionFailedMessage(RequestHandlers(t)), Some(reg.handlers(t).error))))
            && (reg.handlers(t).Absent? ==> o.result == Err(HandlerNotFound(t)))
  {
  }

  lemma {:induction false} SelectCarries(handlers: seq<Handler>, input: HandlerInput, reg: Registry, t: TypeTag)
    ensures Select(handlers, input, reg, t).input == input
    ensures AllCarry(Select(handlers, input, reg, t).trace, input)
    decreases |handlers|
  {
    if handlers != [] {
      SelectCarries(handlers[1..], input, reg, t);
    }
  }

  lemma {:induction false} SelectReadsOnlyDefault(handlers: seq<Handler>, input: HandlerInput, reg: Registry, t: TypeTag,
                                                   other: TypeTag -> Resolution<seq<Handler>>)
    ensures Select(handlers, input, reg.(handlers := other), t) == Select(handlers, input, reg, t)
    decreases |handlers|
  {
    if handlers != [] {
      SelectReadsOnlyDefault(handlers[1..], input, reg, t, other);
    }
  }

  /** Typed handlers are fetched under the wrapper's own payload type: the
      terminal stage begins with that lookup, and what the registry holds for
      other payload types makes no difference to it. */
  lemma TypedHandlersFetchedByRequestType(reg: Registry, t: TypeTag, input: HandlerInput,
                                          other: TypeTag -> Resolution<seq<Handler>>)
    ensures SelectAndRun(reg, t, input).trace[0] == Resolve(RequestHandlers(t))
    ensures var reg' := reg.(handlers := u => if u == t then reg.handlers(t) else other(u));
            SelectAndRun(reg', t, input) == SelectAndRun(reg, t, input)
  {
    var reg' := reg.(handlers := u => if u == t then reg.handlers(t) else other(u));
    assert reg'.handlers(t) == reg.handlers(t);
    if reg.handlers(t).Resolved? {
      SelectReadsOnlyDefault(reg.handlers(t).value, input, reg, t, reg'.handlers);
    }
  }

  /** The terminal stage hands the input it is given to every `CanHandle`
      and `Handle` call and leaves it as it was. */
  lemma SelectionKeepsInput(reg: Registry, t: TypeTag)
    ensures Pipeline.KeepsInput(TerminalStage(reg, t))
  {
    forall i ensures SelectAndRun(reg, t, i).input == i && AllCarry(SelectAndRun(reg, t, i).trace, i) {
      if reg.handlers(t).Resolved? {
        SelectCarries(reg.handlers(t).value, i, reg, t);
      }
    }
  }

  // ---------------------------------------------------------------------
  // The whole of Handle

  /** `Handle` never reads its `request` argument. */
  lemma HandleIgnoresRequestArgument(w: Wrapper, r1: SkillRequest, r2: SkillRequest, reg: Registry)
    ensures Handle(w, r1, reg) == Handle(w, r2, reg)
  {
  }

  /** Without behaviours, `Handle` yields exactly the terminal stage's result. */
  lemma NoBehaviorsMeansSelection(w: Wrapper, request: SkillRequest, reg: Registry)
    requires !reg.handlerInput.Threw?
    requires reg.behaviors == Resolved([])
    ensures Handle(w, request, reg).result == SelectAndRun(reg, w.requestType, ResolvedInput(reg.handlerInput)).result
  {
    Pipeline.TransparentChainTrace([], ResolvedInput(reg.handlerInput), TerminalStage(reg, w.requestType));
  }

  /** The handler input resolved at entry is the one every behaviour and
      every `CanHandle`/`Handle` call receives, as long as no request
      interceptor rewrites it. */
  lemma HandlerInputShared(w: Wrapper, request: SkillRequest, reg: Registry)
    requires !reg.handlerInput.Threw? && reg.behaviors.Resolved?
    requires forall k :: 0 <= k < |reg.behaviors.value| ==> !reg.behaviors.value[k].kind.RequestIntercept?
    ensures AllCarry(Handle(w, request, reg).trace, ResolvedInput(reg.handlerInput))
  {
    var input := ResolvedInput(reg.handlerInput);
    var terminal := TerminalStage(reg, w.requestType);
    SelectionKeepsInput(reg, w.requestType);
    Pipeline.SharedInputThroughChain(reg.behaviors.value, input, terminal);
    var o := Pipeline.Run(Pipeline.Compose(reg.behaviors.value), input, terminal);
    var tr := Handle(w, request, reg).trace;
    assert tr == [Resolve(HandlerInputService), Resolve(PipelineBehaviors)] + o.trace;
    forall k | 0 <= k < |tr| ensures tr[k].Carries(input) {
      if k >= 2 { assert tr[k] == o.trace[k - 2]; }
    }
  }

  /** A behaviour that returns without calling `next` keeps every handler
      out of the dispatch, whatever behaviours stand in front of it: the
      outcome does not depend on the registered typed or default handlers,
      and the trace holds no handler lookup and no handler call. */
  lemma ShortCircuitBehindAnyBehaviors(w: Wrapper, request: SkillRequest, reg: Registry, k: nat,
                                       handlers: TypeTag -> Resolution<seq<Handler>>, defaultHandler: Resolution<Handler>)
    requires !reg.handlerInput.Threw? && reg.behaviors.Resolved?
    requires k < |reg.behaviors.value| && reg.behaviors.value[k].kind.ShortCircuit?
    ensures Handle(w, request, reg.(handlers := handlers, defaultHandler := defaultHandler)) == Handle(w, request, reg)
    ensures NoHandlerActivity(Handle(w, request, reg).trace)
  {
    var bs := reg.behaviors.value;
    var input := ResolvedInput(reg.handlerInput);
    var reg' := reg.(handlers := handlers, defaultHandler := defaultHandler);
    Pipeline.ComposeIsRegistrationOrder(bs);
    Pipeline.ShortCircuitAnyPrefix(bs, k, TerminalStage(reg, w.requestType), TerminalStage(reg', w.requestType));
    Pipeline.ShortCircuitQuiet(bs, k, input, TerminalStage(reg, w.requestType));
    var head := [Resolve(HandlerInputService), Resolve(PipelineBehaviors)];
    var o := Pipeline.Run(Pipeline.Compose(bs), input, TerminalStage(reg, w.requestType));
    assert Handle(w, request, reg).trace == head + o.trace;
    forall j | 0 <= j < |head + o.trace| ensures !(head + o.trace)[j].IsHandlerActivity() {
      if j >= 2 {
        assert (head + o.trace)[j] == o.trace[j - 2];
      }
    }
  }

  /** A behaviour that returns without calling `next`, behind only
      pass-through or tracing behaviours, makes `Handle` answer with its
      response: typed handlers are never fetched and no handler runs. */
  lemma ShortCircuitRunsNoHandler(w: Wrapper, request: SkillRequest, reg: Registry, k: nat)
    requires !reg.handlerInput.Threw? && reg.behaviors.Resolved?
    requires k < |reg.behaviors.value| && reg.behaviors.value[k].kind.ShortCircuit?
    requires forall j :: 0 <= j < k ==> Pipeline.Transparent(reg.behaviors.value[j])
    ensures Handle(w, request, reg).result == Ok(reg.behaviors.value[k].kind.response)
    ensures NoHandlerActivity(Handle(w, request, reg).trace)
  {
    var bs := reg.behaviors.value;
    var input := ResolvedInput(reg.handlerInput);
    var terminal := TerminalStage(reg, w.requestType);
    Pipeline.ShortCircuitSkipsTerminal(bs, k, input, terminal);
    Pipeline.EntriesCarry(bs[..k + 1], input);
    Pipeline.ExitsHaveNoActivity(bs[..k]);
    var o := Pipeline.Run(Pipeline.Compose(bs), input, terminal);
    var tr := Handle(w, request, reg).trace;
    var en := Pipeline.Entries(bs[..k + 1], input);
    var ex := Pipeline.Exits(bs[..k]);
    assert tr == [Resolve(HandlerInputService), Resolve(PipelineBehaviors)] + en + ex;
    forall j | 0 <= j < |tr| ensures !tr[j].IsHandlerActivity() {
      if 2 <= j < 2 + |en| {
        assert tr[j] == en[j - 2];
      } else if j >= 2 + |en| {
        assert tr[j] == ex[j - 2 - |en|];
      }
    }
  }
}

=== FILE: requests.dfy ===
/** The request envelope, the payload whose runtime type routes dispatch, the
    response, and the per-request handler input. */
module Requests {
  import opened Errors

  /** Full name of a payload's runtime type (`request.Request.GetType()`). */
  type TypeTag = string

  const IntentRequestType: TypeTag := "Alexa.NET.Request.Type.IntentRequest"

  /** `SkillRequest.Request`: its runtime type, and the fields that handlers
      read and request interceptors rewrite. `intentName` is `None` for
      payloads that are not intent requests. */
  datatype Payload = Payload(runtimeType: TypeTag, locale: string, intentName: Option<string>)

  /** `request.Context.System.Application`, with the null links of that chain
      collapsed into `MissingApplication`. */
  datatype Identity = MissingApplication | Application(applicationId: Option<string>)

  /** The envelope; a `None` payload is a null `SkillRequest.Request`. */
  datatype SkillRequest = SkillRequest(identity: Identity, payload: Option<Payload>)

  /** The reply: spoken plain text, or the empty response. */
  datatype SkillResponse = Tell(text: string) | EmptyResponse

  /** `IHandlerInput`, resolved once per dispatch; `NullInput` is a registry
      that handed back null. The attributes manager and response builder it
      also carries are not part of this model. */
  datatype HandlerInput = NullInput | HandlerInput(envelope: SkillRequest)

  /** The payload a handler input carries, if every link is non-null. */
  function PayloadOf(input: HandlerInput): Option<Payload> {
    if input.HandlerInput? then input.envelope.payload else None
  }
}

=== FILE: scenarios.dfy ===
/** The repository's own test scenarios, stated as facts about the model. */
module Scenarios {
  import opened Errors
  import opened Requests
  import opened Handlers
  import opened Events
  import opened HandlerBase
  import opened Pipeline
  import opened RequestHandlerWrapper
  import opened SkillMediator

  /** `input.RequestEnvelope.Request is IntentRequest intent && intent.Intent.Name == name`. */
  function IntentNamed(input: HandlerInput, name: string): Result<bool> {
    match input
    case NullInput => Err(NullReference)
    case HandlerInput(envelope) =>
      match envelope.payload
      case None => Ok(false)
      case Some(p) => Ok(p.runtimeType == IntentRequestType && p.intentName == Some(name))
  }

  function IntentRequest(name: string, locale: string): Payload {
    Payload(IntentRequestType, locale, Some(name))
  }

  function RequestFor(applicationId: Option<string>, payload: Option<Payload>): SkillRequest {
    SkillRequest(Application(applicationId), payload)
  }

  const BuildAll: TypeTag -> Activation := t => Activated

  // ---------------------------------------------------------------------
  // Admission

  /** The rejected (skill id, application id) pairs of the mediator tests. */
  lemma AdmissionRejectsTestPairs(m: Mediator, c: Cache, payload: Option<Payload>)
    ensures forall skillId, applicationId ::
              (skillId, applicationId) in
                [(Some(""), Some("0")), (Some("  "), Some("0")), (None, Some("0")),
                 (Some("0"), Some("1")), (Some("0"), Some("")), (Some("0"), Some("  ")), (Some("0"), None)]
              ==> var r := Send(Mediator(m.serviceFactory, SkillOptions(skillId)), c, BuildAll, RequestFor(applicationId, payload));
                  r.result.Err? && IsArgumentException(r.result.error) && r.cache == c
  {
    ZeroIsNotBlank();
  }

  /** Matching non-blank ids pass admission and reach the wrapper. */
  lemma MatchingIdsAdmitted()
    ensures AdmissionError(Some("0"), Application(Some("0"))).None?
  {
    ZeroIsNotBlank();
  }

  lemma ZeroIsNotBlank()
    ensures !IsNullOrWhiteSpace(Some("0"))
  {
    assert "0"[0] == '0';
  }

  // ---------------------------------------------------------------------
  // Wrapper

  const TypedHandler: Handler :=
    Handler(1, Overridden(i => IntentNamed(i, "Handled")), i => Ok(Tell("From Handler")))

  const DefaultHandler: Handler :=
    Handler(2, Inherited, i => Ok(Tell("From Default")))

  /** A container that knows the typed handler, optionally the default
      handler, and the handler input, and no behaviours. A container asked
      for an unregistered service throws `InvalidOperationException`. */
  function Container(request: SkillRequest, withDefault: bool): Registry {
    Registry(
      Resolved(HandlerInput(request)),
      t => if t == IntentRequestType then Resolved([TypedHandler]) else Resolved([]),
      if withDefault then Resolved(DefaultHandler) else Threw(InvalidOperation("No service for type", None)),
      Resolved([]))
  }

  const IntentWrapper: Wrapper := Wrapper(0, IntentRequestType)

  /** The eligible typed handler answers. */
  lemma FoundHandlerAnswers()
    ensures var request := RequestFor(None, Some(IntentRequest("Handled", "en-US")));
            Handle(IntentWrapper, request, Container(request, true)).result == Ok(Tell("From Handler"))
  {
    var request := RequestFor(None, Some(IntentRequest("Handled", "en-US")));
    var reg := Container(request, true);
    NoBehaviorsMeansSelection(IntentWrapper, request, reg);
    FirstEligibleHandlerWins([TypedHandler], HandlerInput(request), reg, IntentRequestType, 0);
  }

  /** With the typed handler declining, the default handler answers. */
  lemma UnhandledFallsToDefault()
    ensures var request := RequestFor(None, Some(IntentRequest("Unhandled", "en-US")));
            Handle(IntentWrapper, request, Container(request, true)).result == Ok(Tell("From Default"))
  {
    var request := RequestFor(None, Some(IntentRequest("Unhandled", "en-US")));
    var reg := Container(request, true);
    NoBehaviorsMeansSelection(IntentWrapper, request, reg);
    InheritedDefaultRunsWhenReached(reg, IntentRequestType, HandlerInput(request));
  }

  /** Without a default handler the dispatch fails with
      `InvalidOperationException`: the container throws it when asked for
      the missing default, and a registry returning null leads to the
      handler-not-found one. */
  lemma NoDefaultFails()
    ensures var request := RequestFor(None, Some(IntentRequest("Unhandled", "en-US")));
            var r := Handle(IntentWrapper, request, Container(request, false));
            r.result.Err? && IsInvalidOperation(r.result.error)
    ensures var request := RequestFor(None, Some(IntentRequest("Unhandled", "en-US")));
            var reg := Container(request, false).(defaultHandler := Absent);
            Handle(IntentWrapper, request, reg).result == Err(HandlerNotFound(IntentRequestType))
  {
    var request := RequestFor(None, Some(IntentRequest("Unhandled", "en-US")));
    var reg := Container(request, false);
    NoBehaviorsMeansSelection(IntentWrapper, request, reg);
    NoEligibleHandlerFallsBack([TypedHandler], HandlerInput(request), reg, IntentRequestType);
    var reg' := reg.(defaultHandler := Absent);
    NoBehaviorsMeansSelection(IntentWrapper, request, reg');
    NotFoundWithoutUsableDefault(reg', IntentRequestType, HandlerInput(request));
  }

  const EmptyBehavior: Behavior := Behavior("EmptyPipelineBehavior", PassThrough)

  const NotSupported: Exn := Raised("NotSupportedException", "Specified method is not supported.")

  /** A registry that throws for the typed handlers yields the
      construction-failed `InvalidOperationException` carrying the original
      exception; one that returns null yields the not-found one. */
  lemma RegistryFailuresAfterPassThrough()
    ensures var request := RequestFor(None, Some(IntentRequest("Handled", "en-US")));
            var reg := Registry(Resolved(HandlerInput(request)), t => Threw(NotSupported), Threw(NotSupported), Resolved([EmptyBehavior]));
            Handle(IntentWrapper, request, reg).result
            == Err(InvalidOperation(ConstructionFailedMessage(IntentHandlers), Some(NotSupported)))
    ensures var request := RequestFor(None, Some(IntentRequest("Handled", "en-US")));
            var reg := Registry(Resolved(HandlerInput(request)), t => Absent, Absent, Resolved([EmptyBehavior]));
            Handle(IntentWrapper, request, reg).result == Err(InvalidOperation(NotFoundMessage(IntentHandlers), None))
  {
    var request := RequestFor(None, Some(IntentRequest("Handled", "en-US")));
    var input := HandlerInput(request);
    var reg1 := Registry(Resolved(input), t => Threw(NotSupported), Threw(NotSupported), Resolved([EmptyBehavior]));
    TransparentChainTrace([EmptyBehavior], input, TerminalStage(reg1, IntentRequestType));
    var reg2 := Registry(Resolved(input), t => Absent, Absent, Resolved([EmptyBehavior]));
    TransparentChainTrace([EmptyBehavior], input, TerminalStage(reg2, IntentRequestType));
  }

  // ---------------------------------------------------------------------
  // Pipeline order

  /** Two tracing behaviours [A, B] around a handler run as A-before,
      B-before, handler, B-after, A-after. */
  lemma TwoBehaviorsNest(input: HandlerInput, terminal: HandlerInput -> Outcome)
    requires terminal(input).result.Ok?
    ensures var a := Behavior("A", Trace);
            var b := Behavior("B", Trace);
            Run(Compose([a, b]), input, terminal).trace
            == [Entered("A", input), Entered("B", input)] + terminal(input).trace + [Left("B"), Left("A")]
  {
    var a := Behavior("A", Trace);
    var b := Behavior("B", Trace);
    TransparentChainTrace([a, b], input, terminal);
    assert [a, b][1..] == [b];
    assert [b][1..] == [];
    assert Entries([b], input) == [Entered("B", input)];
    assert Entries([a, b], input) == [Entered("A", input), Entered("B", input)];
    assert Exits([b]) == [Left("B")];
    assert Exits([a, b]) == [Left("B"), Left("A")];
  }

  // ---------------------------------------------------------------------
  // Exception-processing behaviour

  /** Throws `InvalidOperationException` for the intent "Invalid" and
      `ArgumentException` otherwise. */
  const ThrowingHandler: Handler :=
    Handler(3, Overridden(i => Ok(true)),
            i => if IntentNamed(i, "Invalid") == Ok(true) then Err(InvalidOperation("Invalid", None)) else Err(Argument("Argument")))

  const InvalidOperationHandler: ExceptionHandler :=
    ExceptionHandler(4, (i, e) => IsInvalidOperation(e), (i, e) => Ok(EmptyResponse))

  function ExceptionMediator(request: SkillRequest): Mediator {
    Mediator(
      Registry(
        Resolved(HandlerInput(request)),
        t => if t == IntentRequestType then Resolved([ThrowingHandler]) else Resolved([]),
        Threw(InvalidOperation("No service for type", None)),
        Resolved([Behavior("RequestExceptionProcessBehavior", ExceptionProcess([InvalidOperationHandler]))])),
      SkillOptions(Some("0")))
  }

  lemma ExceptionScenario(name: string) returns (r: Sent)
    ensures var request := RequestFor(Some("0"), Some(IntentRequest(name, "en-US")));
            r == Send(ExceptionMediator(request), EmptyCache, BuildAll, request)
    ensures var request := RequestFor(Some("0"), Some(IntentRequest(name, "en-US")));
            var o := SelectAndRun(ExceptionMediator(request).serviceFactory, IntentRequestType, HandlerInput(request));
            && o.input == HandlerInput(request)
            && (o.result.Ok? ==> r.result == o.result)
            && (o.result.Err? && !IsInvalidOperation(o.result.error) ==> r.result == o.result)
            && (o.result.Err? && IsInvalidOperation(o.result.error) ==> r.result == Ok(EmptyResponse))
            && o.result == ThrowingHandler.handle(HandlerInput(request))
  {
    var request := RequestFor(Some("0"), Some(IntentRequest(name, "en-US")));
    var m := ExceptionMediator(request);
    r := Send(m, EmptyCache, BuildAll, request);
    ZeroIsNotBlank();
    AdmittedRequestIsDelegated(m, EmptyCache, BuildAll, request);
    var reg := m.serviceFactory;
    var input := HandlerInput(request);
    var w := r.cache.entries[IntentRequestType];
    assert w.requestType == IntentRequestType;
    ExceptionBehaviorOutermost([InvalidOperationHandler], "RequestExceptionProcessBehavior", [], input,
                               TerminalStage(reg, IntentRequestType));
    assert [Behavior("RequestExceptionProcessBehavior", ExceptionProcess([InvalidOperationHandler]))] + []
           == reg.behaviors.value;
    FirstEligibleHandlerWins([ThrowingHandler], input, reg, IntentRequestType, 0);
    var o := SelectAndRun(reg, IntentRequestType, input);
    if o.result.Err? && IsInvalidOperation(o.result.error) {
      var hs := [InvalidOperationHandler];
      assert hs[0].canHandle(input, o.result.error);
      assert hs[0].handle(input, o.result.error) == Ok(EmptyResponse);
    }
  }

  /** A handler's `InvalidOperationException` is recovered into a response;
      its `ArgumentException` propagates unchanged through `Send`. */
  lemma ExceptionBehaviorScenarios()
    ensures var request := RequestFor(Some("0"), Some(IntentRequest("Invalid", "en-US")));
            Send(ExceptionMediator(request), EmptyCache, BuildAll, request).result == Ok(EmptyResponse)
    ensures var request := RequestFor(Some("0"), Some(IntentRequest("", "en-US")));
            Send(ExceptionMediator(request), EmptyCache, BuildAll, request).result == Err(Argument("Argument"))
  {
    var r1 := ExceptionScenario("Invalid");
    var r2 := ExceptionScenario("");
  }

  // ---------------------------------------------------------------------
  // Request-interceptor behaviour

  /** Answers with the locale it finds in the request; keeps the inherited
      `CanHandle`. */
  const LocaleHandler: Handler :=
    Handler(5, Inherited, i => if PayloadOf(i).Some? then Ok(Tell(PayloadOf(i).value.locale)) else Err(NullReference))

  function SetLocale(input: HandlerInput, locale: string): Result<HandlerInput> {
    match input
    case NullInput => Err(NullReference)
    case HandlerInput(envelope) =>
      match envelope.payload
      case None => Err(NullReference)
      case Some(p) => Ok(HandlerInput(envelope.(payload := Some(p.(locale := locale)))))
  }

  const FrenchInterceptor: RequestInterceptor := RequestInterceptor(6, i => SetLocale(i, "fr-fr"))

  function InterceptorMediator(request: SkillRequest): Mediator {
    Mediator(
      Registry(
        Resolved(HandlerInput(request)),
        t => if t == IntentRequestType then Resolved([LocaleHandler]) else Resolved([]),
        Threw(InvalidOperation("No service for type", None)),
        Resolved([Behavior("RequestInterceptorBehavior", RequestIntercept([FrenchInterceptor]))])),
      SkillOptions(Some("0")))
  }

  /** The interceptor's locale rewrite is what the handler sees. */
  lemma InterceptorRewriteSeenByHandler()
    ensures var request := RequestFor(Some("0"), Some(IntentRequest("", "en-US")));
            Send(InterceptorMediator(request), EmptyCache, BuildAll, request).result == Ok(Tell("fr-fr"))
  {
    var request := RequestFor(Some("0"), Some(IntentRequest("", "en-US")));
    var m := InterceptorMediator(request);
    ZeroIsNotBlank();
    AdmittedRequestIsDelegated(m, EmptyCache, BuildAll, request);
    var reg := m.serviceFactory;
    var input := HandlerInput(request);
    InterceptedInputReachesTerminal([FrenchInterceptor], "RequestInterceptorBehavior", [], input,
                                    TerminalStage(reg, IntentRequestType));
    assert [Behavior("RequestInterceptorBehavior", RequestIntercept([FrenchInterceptor]))] + [] == reg.behaviors.value;
    var rewritten := Intercept([FrenchInterceptor], input).input;
    assert rewritten == HandlerInput(RequestFor(Some("0"), Some(IntentRequest("", "fr-fr"))));
    InheritedHandlerIsChosen(reg, IntentRequestType, rewritten, 0);
  }
}

=== FILE: skill_mediator.dfy ===
/** `SkillMediator`: the constructor's null checks, the skill-id admission
    check, and `Send`, which routes a request by its payload's runtime type
    through a process-wide get-or-add cache of wrappers. */
module SkillMediator {
  import opened Errors
  import opened Requests
  import opened Events
  import opened HandlerBase
  import opened RequestHandlerWrapper

  /** `AlexaSkillOptions`; `SkillId` may be null. */
  datatype SkillOptions = SkillOptions(skillId: Option<string>)

  /** A constructed mediator: its service factory and its options. */
  datatype Mediator = Mediator(serviceFactory: Registry, options: SkillOptions)

  /** `new SkillMediator(serviceFactory, options)`; `None` is a null argument. */
  function New(serviceFactory: Option<Registry>, options: Option<SkillOptions>): (r: Result<Mediator>)
    ensures r.Ok? <==> serviceFactory.Some? && options.Some?
    ensures serviceFactory.None? ==> r.Err? && r.error == ArgumentNull("serviceFactory")
    ensures serviceFactory.Some? && options.None? ==> r.Err? && r.error == ArgumentNull("options")
    ensures r.Ok? ==> r.value.options == options.value
  {
    match serviceFactory
    case None => Err(ArgumentNull("serviceFactory"))
    case Some(sf) =>
      match options
      case None => Err(ArgumentNull("options"))
      case Some(o) => Ok(Mediator(sf, o))
  }

  // ---------------------------------------------------------------------
  // Admission

  /** `char.IsWhiteSpace`: the Unicode space, line and paragraph separators,
      the controls U+0009 to U+000D, and U+0085. */
  predicate IsWhiteSpace(c: char) {
    || c == ' ' || c == '\U{00A0}' || c == '\U{1680}'
    || ('\U{2000}' <= c <= '\U{200A}') || c == '\U{202F}' || c == '\U{205F}' || c == '\U{3000}'
    || c == '\U{2028}' || c == '\U{2029}'
    || ('\U{0009}' <= c <= '\U{000D}') || c == '\U{0085}'
  }

  /** `string.IsNullOrWhiteSpace`: null, or every character is white space. */
  function IsNullOrWhiteSpace(s: Option<string>): (r: bool)
    ensures r <==> s.None? || forall k :: 0 <= k < |s.value| ==> IsWhiteSpace(s.value[k])
  {
    s.None? || AllWhiteSpace(s.value)
  }

  /** The character scan of `IsNullOrWhiteSpace`, stopping at the first
      character that is not white space. */
  function AllWhiteSpace(s: string): (r: bool)
    ensures r <==> forall k :: 0 <= k < |s| ==> IsWhiteSpace(s[k])
  {
    |s| == 0 || (IsWhiteSpace(s[0]) && AllWhiteSpace(s[1..]))
  }

  const VerificationFailed: string := "Skill ID verification failed!"

  /** The admission check of `Send`: the exception it throws, if any. The
      configured id is tested first, so a blank one fails without the
      request's identity being read. */
  function AdmissionError(skillId: Option<string>, identity: Identity): (r: Option<Exn>)
    ensures r.None? <==> !IsNullOrWhiteSpace(skillId) && identity == Application(skillId)
    ensures IsNullOrWhiteSpace(skillId) ==> r == Some(Argument(VerificationFailed))
    ensures r.Some? && identity.Application? ==> r == Some(Argument(VerificationFailed))
  {
    if IsNullOrWhiteSpace(skillId) then Some(Argument(VerificationFailed))
    else
      match identity
      case MissingApplication => Some(NullReference)
      case Application(applicationId) =>
        if applicationId != skillId then Some(Argument(VerificationFailed)) else None
  }

  // ---------------------------------------------------------------------
  // The wrapper cache

  /** What `Activator.CreateInstance(RequestHandlerWrapperImpl<t>)` does for
      a payload type: build the wrapper, yield null, or throw. */
  datatype Activation = Activated | ActivatedNull | ActivationThrew(error: Exn)

  /** The static `RequestHandlers` dictionary, plus a count of the
      wrapper instances allocated so far (a fresh instance takes the next number). */
  datatype Cache = Cache(entries: map<TypeTag, Wrapper>, instances: nat)
  {
    /** Each entry is the wrapper for its own key, and no two keys share an
        instance. */
    ghost predicate Valid() {
      && (forall t :: t in entries ==> entries[t].requestType == t && entries[t].instance < instances)
      && (forall t, u :: t in entries && u in entries && t != u ==> entries[t].instance != entries[u].instance)
    }
  }

  const EmptyCache: Cache := Cache(map[], 0)

  function CouldNotCreateMessage(t: TypeTag): string {
    "Could not create wrapper type for " + t
  }

  /** One get-or-add: the cache afterwards, the wrapper or the exception,
      and whether the value factory was called. */
  datatype Lookup = Lookup(cache: Cache, wrapper: Result<Wrapper>, factoryCalled: bool)

  /** `RequestHandlers.GetOrAdd(t, factory)`. */
  function GetOrAdd(c: Cache, t: TypeTag, activate: TypeTag -> Activation): (r: Lookup)
    ensures t in c.entries ==> r == Lookup(c, Ok(c.entries[t]), false)
    ensures r.factoryCalled <==> t !in c.entries
    ensures r.wrapper.Ok? <==> t in c.entries || activate(t).Activated?
    ensures r.wrapper.Err? ==> r.cache == c
    ensures r.wrapper.Ok? ==> t in r.cache.entries && r.cache.entries[t] == r.wrapper.value
    ensures c.Valid() && r.wrapper.Ok? ==> r.wrapper.value.requestType == t
    ensures t !in c.entries && activate(t).ActivatedNull? ==> r.wrapper == Err(InvalidOperation(CouldNotCreateMessage(t), None))
    ensures t !in c.entries && activate(t).ActivationThrew? ==> r.wrapper == Err(activate(t).error)
    ensures forall u :: u != t ==> (u in r.cache.entries <==> u in c.entries)
    ensures forall u :: u != t && u in c.entries ==> r.cache.entries[u] == c.entries[u]
    ensures c.Valid() ==> r.cache.Valid()
  {
    if t in c.entries then Lookup(c, Ok(c.entries[t]), false)
    else
      match activate(t)
      case ActivationThrew(e) => Lookup(c, Err(e), true)
      case ActivatedNull => Lookup(c, Err(InvalidOperation(CouldNotCreateMessage(t), None)), true)
      case Activated =>
        var w := Wrapper(c.instances, t);
        Lookup(Cache(c.entries[t := w], c.instances + 1), Ok(w), true)
  }

  /** Get-or-add is idempotent: a second lookup of the same type finds the
      wrapper the first one returned, without calling the factory and
      without changing the cache. */
  lemma GetOrAddIdempotent(c: Cache, t: TypeTag, activate: TypeTag -> Activation)
    requires GetOrAdd(c, t, activate).wrapper.Ok?
    ensures var first := GetOrAdd(c, t, activate);
            GetOrAdd(first.cache, t, activate) == Lookup(first.cache, first.wrapper, false)
  {
  }

  // ---------------------------------------------------------------------
  // Send

  /** What one `Send` yields: the cache afterwards, the awaited result, the
      payload types the wrapper factory was called for, and the dispatch
      trace of the wrapper. */
  datatype Sent = Sent(cache: Cache, result: Result<SkillResponse>, factoryCalls: seq<TypeTag>, trace: seq<Event>)

  /** `SkillMediator.Send(request)`, against the process-wide cache `c`. */
  function Send(m: Mediator, c: Cache, activate: TypeTag -> Activation, request: SkillRequest): (r: Sent)
    ensures AdmissionError(m.options.skillId, request.identity).Some? ==> r.result.Err? && r.cache == c && r.factoryCalls == []
    ensures r.result.Ok? ==> && AdmissionError(m.options.skillId, request.identity).None?
                             && request.payload.Some?
                             && request.payload.value.runtimeType in r.cache.entries
    ensures forall u :: u in c.entries ==> u in r.cache.entries && r.cache.entries[u] == c.entries[u]
    ensures r.factoryCalls == [] || (request.payload.Some? && r.factoryCalls == [request.payload.value.runtimeType]
                                     && request.payload.value.runtimeType !in c.entries)
    ensures c.Valid() ==> r.cache.Valid()
  {
    match AdmissionError(m.options.skillId, request.identity)
    case Some(e) => Sent(c, Err(e), [], [])
    case None =>
      match request.payload
      case None => Sent(c, Err(NullReference), [], [])
      case Some(p) =>
        var t := p.runtimeType;
        var l := GetOrAdd(c, t, activate);
        var calls := if l.factoryCalled then [t] else [];
        match l.wrapper
        case Err(e) => Sent(l.cache, Err(e), calls, [])
        case Ok(w) =>
          var reply := Handle(w, request, m.serviceFactory);
          Sent(l.cache, reply.result, calls, reply.trace)
  }

  /** A configured skill id that is null, empty or white space rejects every
      request with `ArgumentException`, whatever its application id: the
      cache is untouched, no wrapper is built and nothing is dispatched. */
  lemma BlankSkillIdRejects(m: Mediator, c: Cache, activate: TypeTag -> Activation, request: SkillRequest)
    requires IsNullOrWhiteSpace(m.options.skillId)
    ensures var r := Send(m, c, activate, request);
            && r.result == Err(Argument(VerificationFailed))
            && r.cache == c && r.factoryCalls == [] && r.trace == []
  {
  }

  /** An application id that differs from a non-blank skill id (including a
      null or blank one) rejects the request with `ArgumentException` before
      any lookup or dispatch. */
  lemma MismatchedApplicationRejects(m: Mediator, c: Cache, activate: TypeTag -> Activation, request: SkillRequest)
    requires request.identity.Application? && request.identity.applicationId != m.options.skillId
    ensures var r := Send(m, c, activate, request);
            && r.result.Err? && IsArgumentException(r.result.error)
            && r.cache == c && r.factoryCalls == [] && r.trace == []
  {
  }

  /** A request passes admission iff the skill id is non-blank and equal to
      the request's application id; a request that passes with a payload is
      handed to the wrapper for its payload's runtime type, and `Send`
      returns exactly that wrapper's `Handle` result and trace. */
  lemma AdmittedRequestIsDelegated(m: Mediator, c: Cache, activate: TypeTag -> Activation, request: SkillRequest)
    requires c.Valid()
    requires request.payload.Some?
    requires request.payload.value.runtimeType in c.entries || activate(request.payload.value.runtimeType).Activated?
    ensures var r := Send(m, c, activate, request);
            var t := request.payload.value.runtimeType;
            && (r.result.Err? && r.result.error == Argument(VerificationFailed) && r.trace == [] && r.cache == c
                <== (request.identity.Application? && (IsNullOrWhiteSpace(m.options.skillId) || request.identity != Application(m.options.skillId))))
            && (!IsNullOrWhiteSpace(m.options.skillId) && request.identity == Application(m.options.skillId) ==>
                  && t in r.cache.entries
                  && r.cache.entries[t].requestType == t
                  && var reply := Handle(r.cache.entries[t], request, m.serviceFactory);
                     r.result == reply.result && r.trace == reply.trace)
  {
  }

  /** If wrapper construction yields null, `Send` fails with
      `InvalidOperationException` and nothing is cached for the type. */
  lemma NullWrapperCachesNothing(m: Mediator, c: Cache, activate: TypeTag -> Activation, request: SkillRequest)
    requires AdmissionError(m.options.skillId, request.identity).None?
    requires request.payload.Some?
    requires request.payload.value.runtimeType !in c.entries
    requires activate(request.payload.value.runtimeType).ActivatedNull?
    ensures var r := Send(m, c, activate, request);
            var t := request.payload.value.runtimeType;
            && r.result == Err(InvalidOperation(CouldNotCreateMessage(t), None))
            && r.cache == c && t !in r.cache.entries
            && r.factoryCalls == [t] && r.trace == []
  {
  }

  /** Caching a wrapper for one type leaves every other type's entry as it
      was, and a cached entry is never replaced. */
  lemma SendChangesOnlyItsOwnType(m: Mediator, c: Cache, activate: TypeTag -> Activation, request: SkillRequest)
    ensures var r := Send(m, c, activate, request);
            && (forall u :: u in c.entries ==> u in r.cache.entries && r.cache.entries[u] == c.entries[u])
            && (forall u :: u in r.cache.entries && u !in c.entries ==>
                  request.payload.Some? && u == request.payload.value.runtimeType)
            && (c.Valid() ==> r.cache.Valid())
  {
  }

  /** A sequence of `Send` calls, possibly from different mediators, sharing
      the one static cache. */
  datatype Session = Session(cache: Cache, results: seq<Result<SkillResponse>>, factoryCalls: seq<TypeTag>)

  function SendAll(calls: seq<(Mediator, SkillRequest)>, c: Cache, activate: TypeTag -> Activation): (s: Session)
    ensures |s.results| == |calls|
    decreases |calls|
  {
    if calls == [] then Session(c, [], [])
    else
      var r := Send(calls[0].0, c, activate, calls[0].1);
      var rest := SendAll(calls[1..], r.cache, activate);
      Session(rest.cache, [r.result] + rest.results, r.factoryCalls + rest.factoryCalls)
  }

  /** Once a type has a cached wrapper, no later `Send` calls the factory
      for it again and the entry stays the same instance. */
  lemma {:induction false} CachedWrapperIsReused(calls: seq<(Mediator, SkillRequest)>, c: Cache, activate: TypeTag -> Activation, t: TypeTag)
    requires t in c.entries
    ensures var s := SendAll(calls, c, activate);
            && t !in s.factoryCalls
            && t in s.cache.entries && s.cache.entries[t] == c.entries[t]
    decreases |calls|
  {
    if calls != [] {
      var r := Send(calls[0].0, c, activate, calls[0].1);
      SendChangesOnlyItsOwnType(calls[0].0, c, activate, calls[0].1);
      CachedWrapperIsReused(calls[1..], r.cache, activate, t);
    }
  }

  /** When construction succeeds for a type, the wrapper factory is called
      for it at most once over any sequence of `Send` calls. */
  lemma {:induction false} FactoryRunsAtMostOnce(calls: seq<(Mediator, SkillRequest)>, c: Cache, activate: TypeTag -> Activation, t: TypeTag)
    requires activate(t).Activated?
    ensures multiset(SendAll(calls, c, activate).factoryCalls)[t] <= 1
    decreases |calls|
  {
    if t in c.entries {
      CachedWrapperIsReused(calls, c, activate, t);
      assert multiset(SendAll(calls, c, activate).factoryCalls)[t] == 0;
    } else if calls != [] {
      var r := Send(calls[0].0, c, activate, calls[0].1);
      var rest := SendAll(calls[1..], r.cache, activate);
      assert SendAll(calls, c, activate).factoryCalls == r.factoryCalls + rest.factoryCalls;
      if t in r.factoryCalls {
        assert r.factoryCalls == [t];
        assert t in r.cache.entries;
        CachedWrapperIsReused(calls[1..], r.cache, activate, t);
        assert multiset(rest.factoryCalls)[t] == 0;
      } else {
        FactoryRunsAtMostOnce(calls[1..], r.cache, activate, t);
        assert multiset(r.factoryCalls)[t] == 0;
      }
    }
  }

  /** Every state the static cache reaches from the empty cache is valid:
      one wrapper per type, for that type, with no instance shared. */
  lemma {:induction false} SessionKeepsCacheValid(calls: seq<(Mediator, SkillRequest)>, c: Cache, activate: TypeTag -> Activation)
    requires c.Valid()
    ensures SendAll(calls, c, activate).cache.Valid()
    decreases |calls|
  {
    if calls != [] {
      var r := Send(calls[0].0, c, activate, calls[0].1);
      SendChangesOnlyItsOwnType(calls[0].0, c, activate, calls[0].1);
      SessionKeepsCacheValid(calls[1..], r.cache, activate);
    }
  }
}
